=== FILE: README.md ===
# English-learning flashcards: a verified model of the app's core logic

This project models the core logic of the flashcard and exercise app in
`js/app.js` as pure Dafny functions over immutable data. It proves properties
of that model. There are four parts.

- **Drag-and-drop engine** (`DragDropManager`, `drag_drop.dfy`).
  - Tokens (drag items) are dropped onto slots (dropzones).
  - Each drop is recorded in an undo history of at most 20 entries; the
    oldest entry is evicted first.
  - `undo` walks that history back and `reset` clears everything.
  - The DOM is replaced by two maps keyed by element id.
- **Audio player** (`StableAudioPlayer`, `audio.dfy`).
  - Three recorded clips are tried in a fixed order: the unit's MP3, the
    unit's M4A, then the shared MP3.
  - The fall-back chain goes recorded clip → speech synthesis → "no audio".
  - The toggle/stop state machine covers the button that owns playback.
  - The text spoken for an audio key is looked up from the loaded unit.
  - What the browser does with each clip and with speech synthesis is a
    given outcome (`Host`).
- **Star ratings and statistics** (`stars.dfy`, `percent.dfy`).
  - The per-card 0..5 counter moved by "correct" and "review".
  - Which of those two buttons is enabled.
  - How a count is drawn and labelled.
  - How saved counts are merged in when a unit opens.
  - The mastery statistics.
  - `Math.round` of a percentage, computed exactly on integers.
- **Helpers** (`time_format.dfy`, `decimal.dfy`, `text.dfy`, `exercises.dfy`).
  - `formatTime`.
  - The decimal rendering of a count.
  - ECMAScript `String.prototype.trim`.
  - The answer-id prefix strip `replace(/^vd-|^sf-/, '')`.
  - Marking of the vocabulary drag exercise (`checkVocabDrag`).
  - The feedback line (`showFeedback`).

`wrappers.dfy` holds the `Option` type. The code's behaviours are modelled
as written except where "## Left out" says otherwise. In particular, the
player is built on the corrected `stopCurrentAudio` (see "## Findings").
Two behaviours that look odd are kept as written:

- `undo` removes the slot's `data-answer`. It does not restore the answer
  recorded in the history entry.
- A token displaced from a filled slot keeps its `used` mark.

## Model

| member | source | states |
|---|---|---|
| Decimal.NatToString | js/app.js:38 | the decimal text of a count is non-empty, all digits, and has no leading zero unless it is "0" |
| Decimal.ParseNatToString | js/app.js:38 | the decimal text of a count reads back as that same count |
| Decimal.NatToStringInjective | js/app.js:38 | different counts are rendered as different texts |
| TimeFormat.Split | js/app.js:37-45 | the hours and minutes shown always add back up to the input; a bare minute count is shown exactly below 60; otherwise at least one hour is shown, and a minute part in 1..59 only when it is non-zero |
| TimeFormat.FormatTime | js/app.js:37-45 | below 60 minutes the minute count with its unit; from 60 on, the hours, followed by a space and the remaining minutes only when they are not zero |
| TimeFormat.FormatTimeSamples | js/app.js:37-45 | 45 reads "45 分鐘", 120 reads "2 小時", 135 reads "2 小時 15 分鐘" |
| TimeFormat.FormatTimeInjective | js/app.js:37-45 | two durations with the same display text are equal |
| TimeFormat.RenderInjective | js/app.js:38-43 | each of the three display shapes is decoded uniquely from its text |
| Text.Trim | js/app.js:340 | the trimmed text has no JS white space or line terminator at either end, and it is an infix of the input with only such characters before and after it |
| Text.TrimPadded | js/app.js:340 | padding a trimmed string with white space on both sides and trimming gives it back, so `Trim` is determined uniquely |
| Text.TrimIdempotent | js/app.js:340 | trimming twice is trimming once |
| Text.TrimKeepsTrimmed | js/app.js:340 | a string with no space at either end is its own trim |
| Text.StripAnswerPrefix | js/app.js:342 | the stored answer is a suffix of the id: three characters shorter exactly when the id starts with `vd-` or `sf-`, and the id itself otherwise |
| Text.StripAddedPrefix | js/app.js:342 | stripping `vd-` or `sf-` put in front of any id gives that id back |
| Text.StripRemovesOnlyOne | js/app.js:342 | the anchored, non-global pattern removes one prefix only: `vd-sf-2` becomes `sf-2` |
| DragDrop.Fresh | js/app.js:894-903 | a freshly rendered exercise has one empty slot per dropzone, one token per drag item carrying its text, unused, draggable and not dragging, and no history; it satisfies the engine invariant |
| DragDrop.Push | js/app.js:331-338 | logging a drop appends its entry and evicts the oldest entry once the log would exceed 20 |
| DragDrop.DragStart | js/app.js:311-319 | a drag on a used token is suppressed; a drag on an unused token carries its id and marks only that token `dragging`; other elements are ignored; slots and history never change |
| DragDrop.Drop | js/app.js:322-348 | an invalid drop changes nothing; a valid drop shows the trimmed token text, marks the slot filled, sets the stripped answer, consumes the token, logs the prior content and answer, and leaves every other slot and token alone |
| DragDrop.Undo | js/app.js:350-360 | an empty history changes nothing; otherwise the newest entry is popped, its slot gets back the recorded content with no classes and no answer, its token becomes unused and draggable, and nothing else changes |
| DragDrop.Reset | js/app.js:362-373 | the history is emptied, every slot is emptied, and every token becomes unused and draggable while keeping its text |
| DragDrop.Step | js/app.js:305-309 | every engine event preserves the invariant (history of at most 20 entries naming known elements, draggable iff unused) and never changes token texts |
| DragDrop.Run | js/app.js:297 | after any sequence of events the history holds at most 20 entries |
| DragDrop.DropThenUndo | js/app.js:322-360 | a drop followed by undo restores the token and the slot's content exactly, and restores the history when it was below capacity |
| DragDrop.DropAllHistory | js/app.js:331-338 | after any sequence of drops the history is exactly the last 20 of all entries ever logged, oldest first |
| DragDrop.UndoTimesHistory | js/app.js:350-352 | k undos remove exactly the k newest entries, and stop at an empty history |
| DragDrop.ResetIdempotent | js/app.js:362-373 | resetting twice is resetting once |
| DragDrop.ResetAfterRun | js/app.js:362-373 | reset after any events gives back the freshly rendered vocabulary exercise (empty dropzones), except that `dragging` marks stay |
| DragDrop.ResetAfterDrops | js/app.js:362-373 | with no drag starts, reset after any events gives back the freshly rendered vocabulary exercise exactly |
| DragDrop.DisplacedTokenStaysUsed | js/app.js:331-345 | a second drop onto a slot overwrites the first token's answer, yet the first token stays used and undraggable |
| DragDrop.UndoForgetsRecordedAnswer | js/app.js:331-360 | the entry records the previous answer, but undo leaves the slot unfilled with no answer while the first token stays used |
| Audio.Candidates | js/app.js:204-208 | exactly three clips are tried for a key |
| Audio.CandidateOrder | js/app.js:204-208 | the unit MP3 comes first, then the unit M4A, then the shared MP3, and all three paths are different |
| Audio.FirstPlayed | js/app.js:210-248 | the chosen clip is the first one that plays, and none plays when none is chosen |
| Audio.TryPlayLocal | js/app.js:202-251 | the result is true iff some clip plays; the clips are tried strictly in order up to and including the first that plays, and all of them when none does; the clip settled on is the one `FirstPlayed` names, which the player keeps |
| Audio.FindAudio | js/app.js:282-285 | `find` returns the first item with the key, and finds none only when no item has it |
| Audio.TextForAudioKey | js/app.js:280-287 | the first word with the key wins, then the first sentence, and the key itself is used when no unit is loaded or nothing matches |
| Audio.Stop | js/app.js:128-142 | after stopping nothing plays, the clip, the owner and the utterance are cleared, the owner's button is idle again, and other buttons are untouched |
| Audio.StopKeepsConsistent | js/app.js:128-142 | stopping keeps the player invariant: only the owner of the running playback shows `playing`, and no button is left loading |
| Audio.Resolve | js/app.js:176-199 | recorded audio iff it is enabled and a clip plays; speech iff no clip played and speech is enabled, available and starts; "no audio" iff no clip played and speech is disabled; playback failure otherwise |
| Audio.Start | js/app.js:169-199 | the status is the fall-back outcome; the `finally` block always leaves the button enabled, not loading and with the volume icon; something plays iff the outcome is recorded audio or speech, owned by this button; the playing clip is the first that played; the spoken text is the key's text; other buttons are untouched |
| Audio.PlayAudio | js/app.js:158-200 | a press on the button that owns the running playback only stops it; any other press releases the old owner's button and ends with the fall-back outcome, after which something plays iff that outcome is recorded audio or speech, owned by the pressed button, with the first clip that played and no clip otherwise; the `finally` block leaves the pressed button enabled, not loading and with the volume icon; no other button changes; the player invariant is kept |
| Audio.Serve | js/app.js:158-278 | whatever sequence of presses and clip or speech endings occurs, the player invariant holds afterwards |
| Audio.InitialConsistent | js/app.js:109-115 | the freshly constructed player satisfies the invariant |
| Audio.StopAsWritten | js/app.js:128-142 | with speech synthesis present it is `Stop`; without it, the bare `speechSynthesis` reference throws after `isPlaying` and the clip were cleared, so the rest of the player is unchanged |
| Audio.StopAsWrittenStrandsButton | js/app.js:134 | on a host without speech synthesis, stopping a playing clip leaves its button showing `playing` and owning the player, which breaks the invariant |
| Percent.RoundPercent | js/app.js:989 | the rounded percentage is within half a point of 100·part/whole, rounding halves up, and lies in 0..100 when part ≤ whole |
| Percent.HundredPercent | js/app.js:989 | the percentage reads 100 exactly when part/whole ≥ 99.5%, so a score short of full marks can show 100% |
| Percent.ZeroPercent | js/app.js:989 | the percentage reads 0 exactly when part/whole < 0.5% |
| Stars.MarkCorrect | js/app.js:651-666 | a known card below five gains one star; at five, or for a card missing from the counts, nothing changes; no other card changes |
| Stars.MarkReview | js/app.js:669-684 | a known card above zero loses one star; otherwise nothing changes; no other card changes |
| Stars.MarksKeepRange | js/app.js:651-684 | both buttons keep every count within 0..5 |
| Stars.MarksUndoEachOther | js/app.js:651-684 | when "correct" has an effect, "review" undoes it, and the other way round |
| Stars.ButtonsFor | js/app.js:608-618 | "correct" is enabled iff the count is below five and "review" iff it is above zero, with a missing card counting as zero |
| Stars.EnabledIffEffective | js/app.js:608-684 | for a known card, each button is enabled exactly when pressing it changes the count |
| Stars.MissingCardCorrectIsInert | js/app.js:610-617 | for a card missing from the counts, "correct" is enabled but pressing it does nothing |
| Stars.LabelFor | js/app.js:641-646 | the label is "start" iff the count is 0, "keep going" iff it is non-zero and below 3, "confident" iff it is in 3..4, and "mastered" iff it is at least 5 |
| Stars.LabelMonotone | js/app.js:641-646 | more stars never show a lower label |
| Stars.StarRow | js/app.js:633-638 | five stars are drawn, and star i is active iff i < count |
| Stars.StarRowShowsCount | js/app.js:633-638 | the number of active stars is the count clamped to 0..5 |
| Stars.InitStarData | js/app.js:434-446 | with no unit loaded nothing changes; otherwise every card of the unit gets its saved count, or zero, and a default of zero; other cards keep their counts; all counts stay within 0..5 when the inputs are |
| Stars.Mastery | js/app.js:697 | the mastery percentage is zero for an empty list, and otherwise the rounded share, within 0..100 |
| Stars.TallyPartition | js/app.js:693-703 | when no count exceeds five, every card is either mastered or to review, and the percentage is within 0..100 |
| Stars.OverfullCardUncounted | js/app.js:695-696 | a card whose saved count is above five adds to neither the mastered nor the to-review count, for any card and any list it heads |
| Stars.OverfullCardSample | js/app.js:695-696 | a one-card list with a saved count of six has total 1 but is neither mastered nor to review |
| Stars.UpdateStats | js/app.js:687-735 | (the tallies are `CountMastered` and `CountReview`, the `filter(...).length` calls at js/app.js:695-696, gathered by `TallyOf`) there are no statistics iff no unit is loaded; each column is the tally of its own ids (totals are the list lengths, mastery in 0..100); the overall percentage exists iff the unit has a title, is the mastery of the summed mastered and total counts, lies in 0..100, and is 0 for an empty unit |
| Stars.UpdateStatsPartition | js/app.js:693-703 | when every saved count is within 0..5, each column's mastered and to-review counts add up to its total, and every percentage shown lies in 0..100 |
| Exercises.GapIdInjective | js/app.js:902 | different gap indices give different slot ids |
| Exercises.ShowFeedback | js/app.js:986-996 | the all-correct message appears iff correct = total; otherwise right and wrong add up to total, and the rounded percentage is shown iff total > 0 and lies in 0..100 |
| Exercises.PartialCanShowHundred | js/app.js:989-994 | 199 right out of 200 shows the partial message with 100% |
| Exercises.MarkGap | js/app.js:945-951 | a gap is marked correct iff its answer is non-empty and equals the expected one after case folding, and incorrect otherwise, in which case it shows the mark and the expected answer; its answer is kept |
| Exercises.GapIds | js/app.js:902 | the gaps' slot ids are `vd-drop-0`, `vd-drop-1`, … in order, all distinct |
| Exercises.FirstMissing | js/app.js:942-945 | the index where the loop meets its first missing gap: all earlier gaps exist and that one does not |
| Exercises.MarkPrefixMarks | js/app.js:941-951 | with distinct gap ids, every gap marked so far shows the marking of its own answer, untouched by later gaps |
| Exercises.MarkPrefixFrame | js/app.js:941-953 | a slot that is none of the gaps marked so far is unchanged |
| Exercises.MarkGaps | js/app.js:941-953 | the loop stops exactly at the first missing gap; every earlier gap is marked from its own answer; when none is missing the count is the reference score; every slot that is not a marked gap, the gaps after the missing one included, is unchanged |
| Exercises.CheckVocabDrag | js/app.js:938-954 | the check completes iff every gap exists; then `showFeedback` is given the number of matching gaps and the number of gaps, the two agree (all correct) iff every gap matches, and every gap is marked; otherwise it throws at a missing gap with the earlier gaps already marked and the later ones untouched; no slot appears or disappears, and slots that are not gaps are unchanged |
| Exercises.FullScoreIffAllMatch | js/app.js:938-954 | the score is full exactly when every gap matches |

## Left out

- The DOM is not modelled: element lookup, `innerHTML` parsing, classes on
  unrelated elements, and the `onDrop` callback that widens a slot. A slot's
  content is the string assigned to it.
- The two exercises share one document. Both managers listen on `document`
  and use the same `.drag-item` class (js/app.js:306-308, 910, 932). The
  same class serves the seven-five exercise, whose tokens are `sf-<i>`
  (js/app.js:923), so the answer strip also removes `sf-`. Because both
  managers listen on `document` and share `.drag-item`, a `sf-` token
  dropped on a vocabulary dropzone is also taken by the vocabulary
  manager. Likewise
  `reset` clears `used` on the other exercise's tokens too. Each model
  engine sees only its own `slots` and `tokens`. A payload naming anything
  else is treated as a missing token, and a reset does not reach elements
  outside `tokens`.
- `renderVocabDrag` builds a new manager and calls `init()` on every render,
  including the one from `resetVocabDrag` (js/app.js:908-916, 958). The old
  manager's `drop` listener is still registered and runs first, so it marks
  the token used. After the first reset, `vocabDragManager` therefore never
  records a drop, and `undoVocabDrag` does nothing. The model has one
  engine per exercise; listener registration is not modelled.
- Neither `dragend` nor any other code clears the `dragging` class. The model
  keeps it, which is why `ResetAfterRun` holds only up to `dragging` marks.
- Timers, promises and races are not modelled. This covers the 1000 ms
  attempt timeout racing a late `oncanplaythrough` and the 300 ms re-enable
  of the star buttons. Each clip attempt and speech request is a given
  outcome. A speech request that never starts or errors (the promise never
  settles) is not modelled.
- Audio.TryPlayLocal: treats the clips as tried one after another, each
  attempt ending once. In the code, `onerror` (js/app.js:245-248) does not
  clear the attempt's 1000 ms timer (220-223). That timer still fires and
  advances `attempted` a second time. After a quick failure on the unit
  MP3, the stale timer can start the shared MP3 while the unit M4A is still
  loading. It can also reach `resolve(false)`, which starts speech synthesis
  while a clip is still loading, so two sources can end up playing. These
  interleavings are not modelled.
- Audio.PlayAudio: stops the running playback with the corrected `Stop`
  on every host. On a host without speech synthesis, the code's stop at
  js/app.js:164 or 167 throws at line 134 (`StopAsWritten`). The new request
  then never starts, and the old owner's button stays `playing`. The model
  therefore covers a host with speech synthesis, or the corrected code.
- Audio.Serve: built on `PlayAudio` and the corrected `Stop`, so its
  invariant is the corrected code's. `StopAsWrittenStrandsButton` shows the
  invariant failing as written on a host without speech synthesis.
- `warmUpTTS`, `showAudioStatus` and media element handles are left out. A
  request's `Status` says which of the four notices is shown; the message
  texts and durations are not modelled.
- `LearningTimer`, `fetch`, `localStorage` and the saving of stars and
  learning statistics are I/O. `InitStarData` takes the saved counts as a
  parameter.
- Percent.RoundPercent: rounds the exact rational 100·part/whole half up. The
  code rounds the floating-point product, which can differ at exact halves
  (for example 29/200 gives 14.499… in binary floating point and rounds to
  14).
- TimeFormat.Split: takes whole minutes. Fractional minutes would be printed
  with a decimal point by the code.
- TimeFormat.FormatTime: takes whole minutes, for the same reason as
  `Split`.
- DragDrop.Reset: `reset` empties every dropzone (js/app.js:365). The
  seven-five dropzones come from `data.text` (js/app.js:927) and may start
  with placeholder content, which a reset does not restore. The model's
  fresh state, with empty slots, is the vocabulary exercise as rendered
  (js/app.js:902).
- Exercises.Matches: `toLowerCase` is a parameter (`lower`). Unicode case
  mapping is not modelled.
- The gap ids use `NatToString`. It matches JavaScript's `${n}` only for
  integers below 10^21, where JavaScript switches to exponent notation.
- `checkSevenFive`, `checkCloze` and `checkGrammar` only call `showFeedback`
  with constant arguments, which `ShowFeedback` covers. Rendering, tabs,
  unit loading and the learning timer are outside this model.

## Findings

| source | as written | input that shows it | evidently intended | confidence | as-written member | corrected member |
|---|---|---|---|---|---|---|
| js/app.js:134 | `if (speechSynthesis)` reads a global that a browser without speech synthesis does not define, so `stopCurrentAudio` throws a ReferenceError after clearing `isPlaying` and the clip, but before releasing the button | a host without `speechSynthesis` while a recorded clip plays, then the clip ends or its button is pressed again | guard with `'speechSynthesis' in window`, as `warmUpTTS` and `playBrowserTTS` do, so that the button is always released | medium, not executed | Audio.StopAsWritten, Audio.StopAsWrittenStrandsButton | Audio.Stop, Audio.StopKeepsConsistent, Audio.PlayAudio, Audio.Serve |

=== FILE: audio.dfy ===
/** The decision logic of the audio player (`StableAudioPlayer`): which
    recorded clips to try and in what order, the fall-back from recorded
    audio to speech synthesis to "unavailable", the toggle/stop state machine
    over the current button, and the text spoken for an audio key. Media
    elements, speech synthesis and timers are replaced by given outcomes. */
module Audio {
  import opened Wrappers

  type Button = string

  const AudioPath: string := "data/audio/"

  /** The two switches of the application configuration; both are on. */
  datatype Config = Config(enableLocalAudio: bool, enableTtsFallback: bool)

  // ---------------------------------------------------------------------------
  // Candidate clips

  /** The clips tried for `key` while unit `unit` is open, highest priority
      first: the unit's MP3, the unit's M4A, then the shared MP3. */
  function Candidates(unit: string, key: string): (ps: seq<string>)
    ensures |ps| == 3
  {
    [AudioPath + unit + "/" + key + ".mp3",
     AudioPath + unit + "/" + key + ".m4a",
     AudioPath + key + ".mp3"]
  }

  /** The two unit-scoped clips come before the shared one, MP3 before M4A,
      and the three paths are pairwise distinct, so every attempt is a
      different file. */
  lemma CandidateOrder(unit: string, key: string)
    ensures var ps := Candidates(unit, key);
            var unitDir := AudioPath + unit + "/";
            && ps[0][..|unitDir|] == unitDir && ps[1][..|unitDir|] == unitDir
            && ps[0][|ps[0]| - 4..] == ".mp3" && ps[1][|ps[1]| - 4..] == ".m4a"
            && ps[2] == AudioPath + key + ".mp3"
            && ps[0] != ps[1] && ps[1] != ps[2] && ps[0] != ps[2]
  {
    var ps := Candidates(unit, key);
    var unitDir := AudioPath + unit + "/";
    assert ps[0] == unitDir + (key + ".mp3");
    assert ps[1] == unitDir + (key + ".m4a");
    assert ps[0][|ps[0]| - 4..] == ".mp3";
    assert ps[1][|ps[1]| - 4..] == ".m4a";
    assert |ps[0]| == |ps[2]| + |unit| + 1;
    assert |ps[1]| == |ps[2]| + |unit| + 1;
  }

  // ---------------------------------------------------------------------------
  // Trying the clips one after another

  /** What happened to one clip: it did not become playable within the
      timeout, it failed to load, it loaded but `play()` was rejected, or it
      started playing. */
  datatype Attempt = TimedOut | LoadFailed | PlayRejected | Played

  /** The index of the first clip that played, if any. */
  function FirstPlayed(outcomes: seq<Attempt>): (r: Option<nat>)
    ensures r.Some? ==> r.value < |outcomes| && outcomes[r.value] == Played
    ensures r.Some? ==> forall j :: 0 <= j < r.value ==> outcomes[j] != Played
    ensures r.None? ==> forall j :: 0 <= j < |outcomes| ==> outcomes[j] != Played
    decreases |outcomes|
  {
    if |outcomes| == 0 then None
    else if outcomes[0] == Played then Some(0)
    else match FirstPlayed(outcomes[1..])
         case None => None
         case Some(i) => Some(i + 1)
  }

  /** `tryPlayLocalAudio`: tries the clips strictly in order, moving on after
      a timeout, a load error or a rejected `play()`; the first clip that
      plays wins, and when all fail the answer is false. `tried` lists the
      clips attempted, in order. The clip it settles on is the one
      `FirstPlayed` names, which is what the player keeps. */
  method TryPlayLocal(candidates: seq<string>, outcomes: seq<Attempt>)
    returns (played: bool, index: nat, tried: seq<string>)
    requires |outcomes| == |candidates|
    ensures played <==> exists i :: 0 <= i < |outcomes| && outcomes[i] == Played
    ensures played ==> index < |outcomes| && outcomes[index] == Played
                       && (forall j :: 0 <= j < index ==> outcomes[j] != Played)
                       && tried == candidates[..index + 1]
    ensures !played ==> index == |outcomes| && tried == candidates
    ensures played ==> FirstPlayed(outcomes) == Some(index)
    ensures !played ==> FirstPlayed(outcomes).None?
  {
    var attempted := 0;
    tried := [];
    while attempted < |candidates|
      invariant 0 <= attempted <= |candidates|
      invariant tried == candidates[..attempted]
      invariant forall j :: 0 <= j < attempted ==> outcomes[j] != Played
    {
      tried := tried + [candidates[attempted]];
      if outcomes[attempted] == Played {
        return true, attempted, tried;
      }
      attempted := attempted + 1;
    }
    assert candidates[..attempted] == candidates;
    return false, attempted, tried;
  }

  // ---------------------------------------------------------------------------
  // The text spoken for an audio key

  datatype Item = Item(audio: string, english: string)

  /** The loaded unit: its words and sentences, either list possibly absent. */
  datatype UnitData = UnitData(words: Option<seq<Item>>, sentences: Option<seq<Item>>)

  /** `items.find(x => x.audio === key)`, as an index. */
  function FindAudio(items: seq<Item>, key: string): (r: Option<nat>)
    ensures r.Some? ==> r.value < |items| && items[r.value].audio == key
    ensures r.Some? ==> forall j :: 0 <= j < r.value ==> items[j].audio != key
    ensures r.None? ==> forall j :: 0 <= j < |items| ==> items[j].audio != key
    decreases |items|
  {
    if |items| == 0 then None
    else if items[0].audio == key then Some(0)
    else match FindAudio(items[1..], key)
         case None => None
         case Some(i) => Some(i + 1)
  }

  /** The item of an optional list whose audio is `key`, if any. */
  function Lookup(items: Option<seq<Item>>, key: string): Option<string> {
    match items
    case None => None
    case Some(xs) =>
      match FindAudio(xs, key)
      case None => None
      case Some(i) => Some(xs[i].english)
  }

  /** `getTextForAudioKey`: the English of the first word with this audio
      key, else of the first sentence with it, else the key itself (also
      when no unit is loaded). */
  function TextForAudioKey(data: Option<UnitData>, key: string): (r: string)
    ensures data.None? ==> r == key
    ensures data.Some? && data.value.words.Some? && FindAudio(data.value.words.value, key).Some? ==>
              r == data.value.words.value[FindAudio(data.value.words.value, key).value].english
    ensures data.Some? && (data.value.words.None? || FindAudio(data.value.words.value, key).None?)
            && data.value.sentences.Some? && FindAudio(data.value.sentences.value, key).Some? ==>
              r == data.value.sentences.value[FindAudio(data.value.sentences.value, key).value].english
    ensures NoItemFor(data, key) ==> r == key
  {
    match data
    case None => key
    case Some(d) =>
      match Lookup(d.words, key)
      case Some(t) => t
      case None =>
        match Lookup(d.sentences, key)
        case Some(t) => t
        case None => key
  }

  function Items(items: Option<seq<Item>>): seq<Item> {
    items.GetOr([])
  }

  /** No unit is loaded, or neither of its lists has an item for `key`. */
  predicate NoItemFor(data: Option<UnitData>, key: string) {
    data.None? ||
    ((forall w :: w in Items(data.value.words) ==> w.audio != key)
     && (forall s :: s in Items(data.value.sentences) ==> s.audio != key))
  }

  // ---------------------------------------------------------------------------
  // The player

  datatype Icon = VolumeIcon | SpinnerIcon | StopIcon

  /** A play button as the player decorates it: its `loading` and `playing`
      classes, its `disabled` property and its icon. */
  datatype View = View(loading: bool, playing: bool, disabled: bool, icon: Icon)

  const IdleView := View(false, false, false, VolumeIcon)

  /** The player's fields: whether something plays, the button that owns it,
      the clip element and the utterance, plus the look of every button. */
  datatype Player = Player(
    isPlaying: bool,
    currentButton: Option<Button>,
    currentClip: Option<string>,
    currentUtterance: Option<string>,
    views: map<Button, View>)

  const Initial := Player(false, None, None, None, map[])

  function ViewOf(p: Player, b: Button): View {
    if b in p.views then p.views[b] else IdleView
  }

  /** At most one button shows `playing`, and only the button that owns the
      running playback; a clip element is held only while it plays; no
      button is left loading between requests. */
  ghost predicate Consistent(p: Player) {
    && (p.isPlaying ==> p.currentButton.Some?)
    && (p.currentClip.Some? ==> p.isPlaying)
    && (forall b :: b in p.views && p.views[b].playing ==> p.isPlaying && p.currentButton == Some(b))
    && (forall b :: b in p.views ==> !p.views[b].loading)
  }

  /** `stopCurrentAudio`, as intended: nothing plays afterwards, the clip,
      button and utterance are all cleared, and the button that owned the
      playback is back to its idle look. Other buttons are untouched. */
  function Stop(p: Player): (r: Player)
    ensures !r.isPlaying && r.currentButton.None? && r.currentClip.None? && r.currentUtterance.None?
    ensures p.currentButton.Some? ==> ViewOf(r, p.currentButton.value) == ViewOf(p, p.currentButton.value).(loading := false, playing := false, disabled := false, icon := VolumeIcon)
    ensures forall b :: Some(b) != p.currentButton ==> ViewOf(r, b) == ViewOf(p, b)
  {
    var views := match p.currentButton
      case Some(b) => p.views[b := ViewOf(p, b).(loading := false, playing := false, disabled := false, icon := VolumeIcon)]
      case None => p.views;
    Player(false, None, None, None, views)
  }

  lemma StopKeepsConsistent(p: Player)
    requires Consistent(p)
    ensures Consistent(Stop(p))
  {
  }

  /** The outcome of speech synthesis once asked to speak. */
  datatype Speech = SpeechStarted | SpeechFailed

  /** What the host does with one request: the outcome of each clip, whether
      it has speech synthesis at all, and what synthesis does. */
  datatype Host = Host(clipOutcomes: seq<Attempt>, hasSpeech: bool, speech: Speech)

  /** The status notice a request ends with (which of the four messages
      `showAudioStatus` shows). */
  datatype Status = PlayedLocal | PlayedSpeech | NoAudio | PlaybackFailed

  datatype PlayResult = Toggled | Finished(status: Status)

  /** The fall-back chain alone: recorded audio if enabled and some clip
      plays, else speech if enabled (failing when the host has none or it
      errors), else no audio. */
  function Resolve(cfg: Config, host: Host): (s: Status)
    ensures s == PlayedLocal <==> cfg.enableLocalAudio && FirstPlayed(host.clipOutcomes).Some?
    ensures s == PlayedSpeech <==>
              (!(cfg.enableLocalAudio && FirstPlayed(host.clipOutcomes).Some?)
               && cfg.enableTtsFallback && host.hasSpeech && host.speech == SpeechStarted)
    ensures s == NoAudio <==> (!(cfg.enableLocalAudio && FirstPlayed(host.clipOutcomes).Some?) && !cfg.enableTtsFallback)
  {
    if cfg.enableLocalAudio && FirstPlayed(host.clipOutcomes).Some? then PlayedLocal
    else if cfg.enableTtsFallback then
      (if host.hasSpeech && host.speech == SpeechStarted then PlayedSpeech else PlaybackFailed)
    else NoAudio
  }

  /** One request on a player that is not playing: the button is marked
      loading, the chain of `Resolve` runs, and the `finally` block clears
      the loading mark, re-enables the button and puts back the volume icon
      whatever happened (so a playing button shows the volume icon). */
  function Start(p: Player, key: string, btn: Button, unit: string, data: Option<UnitData>,
                 cfg: Config, host: Host): (r: (Player, Status))
    requires |host.clipOutcomes| == 3
    requires !p.isPlaying
    ensures r.1 == Resolve(cfg, host)
    ensures !ViewOf(r.0, btn).loading && !ViewOf(r.0, btn).disabled && ViewOf(r.0, btn).icon == VolumeIcon
    ensures r.0.isPlaying <==> r.1 in {PlayedLocal, PlayedSpeech}
    ensures r.0.isPlaying ==> r.0.currentButton == Some(btn) && ViewOf(r.0, btn).playing
    ensures r.1 == PlayedLocal ==>
              r.0.currentClip == Some(Candidates(unit, key)[FirstPlayed(host.clipOutcomes).value])
    ensures r.1 == PlayedSpeech ==> r.0.currentClip == p.currentClip
    ensures r.1 in {PlayedSpeech, PlaybackFailed} && host.hasSpeech ==>
              r.0.currentUtterance == Some(TextForAudioKey(data, key))
    ensures !r.0.isPlaying ==> r.0 == p.(currentUtterance := r.0.currentUtterance, views := r.0.views)
    ensures forall b :: b != btn ==> ViewOf(r.0, b) == ViewOf(p, b)
  {
    var text := TextForAudioKey(data, key);
    var loading := p.(views := p.views[btn := ViewOf(p, btn).(loading := true, icon := SpinnerIcon, disabled := true)]);
    var status := Resolve(cfg, host);
    var after :=
      if status == PlayedLocal then
        var i := FirstPlayed(host.clipOutcomes).value;
        loading.(currentClip := Some(Candidates(unit, key)[i]), currentButton := Some(btn), isPlaying := true,
                 views := loading.views[btn := ViewOf(loading, btn).(playing := true, icon := StopIcon)])
      else if cfg.enableTtsFallback && host.hasSpeech then
        var spoken := loading.(currentUtterance := Some(text));
        if host.speech == SpeechStarted then
          spoken.(isPlaying := true, currentButton := Some(btn),
                  views := spoken.views[btn := ViewOf(spoken, btn).(playing := true, icon := StopIcon)])
        else spoken
      else loading;
    (after.(views := after.views[btn := ViewOf(after, btn).(loading := false, icon := VolumeIcon, disabled := false)]), status)
  }

  /** `playAudio(key, btn)`: a second press on the button that owns the
      running playback only stops it; otherwise any running playback is
      stopped first and the request runs. */
  function PlayAudio(p: Player, key: string, btn: Button, unit: string, data: Option<UnitData>,
                     cfg: Config, host: Host): (r: (Player, PlayResult))
    requires |host.clipOutcomes| == 3
    requires Consistent(p)
    ensures Consistent(r.0)
    ensures p.isPlaying && p.currentButton == Some(btn) ==> r == (Stop(p), Toggled)
    ensures !(p.isPlaying && p.currentButton == Some(btn)) ==>
              && r.1 == Finished(Resolve(cfg, host))
              && (p.isPlaying ==> ViewOf(r.0, p.currentButton.value) == ViewOf(p, p.currentButton.value).(loading := false, playing := false, disabled := false, icon := VolumeIcon))
              && (r.0.isPlaying <==> r.1.status in {PlayedLocal, PlayedSpeech})
              && (r.0.isPlaying ==> r.0.currentButton == Some(btn) && ViewOf(r.0, btn).playing)
              && (!r.0.isPlaying ==> r.0.currentClip.None?)
              && (r.1.status == PlayedLocal ==>
                    r.0.currentClip == Some(Candidates(unit, key)[FirstPlayed(host.clipOutcomes).value]))
              && (r.1.status == PlayedSpeech ==> r.0.currentClip.None?)
              && !ViewOf(r.0, btn).loading && !ViewOf(r.0, btn).disabled && ViewOf(r.0, btn).icon == VolumeIcon
              && (p.isPlaying && !r.0.isPlaying ==> r.0.currentButton.None?)
              && (forall b :: b != btn && Some(b) != p.currentButton ==> ViewOf(r.0, b) == ViewOf(p, b))
  {
    if p.isPlaying && p.currentButton == Some(btn) then
      StopKeepsConsistent(p);
      (Stop(p), Toggled)
    else
      var q := if p.isPlaying then Stop(p) else p;
      StopKeepsConsistent(p);
      var (r, status) := Start(q, key, btn, unit, data, cfg, host);
      (r, Finished(status))
  }

  /** The events the player reacts to: a press of a play button (with what
      the host will do for that request) and the end of the running playback
      (`onended` / `onend`). */
  datatype Event = Press(key: string, btn: Button, host: Host) | PlaybackEnded

  predicate WellFormedEvents(evs: seq<Event>) {
    forall i :: 0 <= i < |evs| ==> evs[i].Press? ==> |evs[i].host.clipOutcomes| == 3
  }

  /** The player after a sequence of events: whatever happens, at most one
      button shows `playing`, it is the owner of the running playback, and no
      button is left loading. */
  function Serve(p: Player, evs: seq<Event>, unit: string, data: Option<UnitData>, cfg: Config): (r: Player)
    requires Consistent(p) && WellFormedEvents(evs)
    ensures Consistent(r)
    decreases |evs|
  {
    if |evs| == 0 then p
    else
      var next := match evs[0]
        case Press(key, btn, host) => PlayAudio(p, key, btn, unit, data, cfg, host).0
        case PlaybackEnded => Stop(p);
      StopKeepsConsistent(p);
      Serve(next, evs[1..], unit, data, cfg)
  }

  lemma InitialConsistent()
    ensures Consistent(Initial)
  {
  }

  // ---------------------------------------------------------------------------
  // stopCurrentAudio as written

  /** `stopCurrentAudio` as the code has it: `if (speechSynthesis)` names a
      global that a host without speech synthesis does not define, so there
      the reference throws after `isPlaying` and the clip were cleared but
      before the button and the utterance are. The flag says whether it
      threw. */
  function StopAsWritten(p: Player, hostHasSpeech: bool): (r: (Player, bool))
    ensures hostHasSpeech ==> r == (Stop(p), false)
    ensures !hostHasSpeech ==> r.1 && r.0 == p.(isPlaying := false, currentClip := None)
  {
    if hostHasSpeech then (Stop(p), false)
    else (p.(isPlaying := false, currentClip := None), true)
  }

  /** On such a host, stopping a recorded clip leaves its button showing
      `playing` and still owning the player although nothing plays. */
  lemma StopAsWrittenStrandsButton()
    ensures var p := Player(true, Some("b"), Some("clip"), None, map["b" := View(false, true, false, StopIcon)]);
            var r := StopAsWritten(p, false);
            && Consistent(p)
            && r.1 && !r.0.isPlaying && r.0.currentButton == Some("b") && ViewOf(r.0, "b").playing
            && !Consistent(r.0)
  {
  }
}

=== FILE: decimal.dfy ===
/** Decimal rendering of natural numbers, as JavaScript template literals
    print a non-negative integer (`${n}`), and the matching digit parser. */
module Decimal {
  import opened Wrappers

  predicate IsDigit(c: char) {
    '0' <= c <= '9'
  }

  predicate AllDigits(s: string) {
    forall i :: 0 <= i < |s| ==> IsDigit(s[i])
  }

  function DigitChar(d: nat): (c: char)
    requires d < 10
    ensures IsDigit(c) && c as int == '0' as int + d
  {
    (('0' as int) + d) as char
  }

  function DigitValue(c: char): (d: nat)
    requires IsDigit(c)
    ensures d < 10 && DigitChar(d) == c
  {
    (c as int) - ('0' as int)
  }

  /** The shortest decimal numeral of `n`: non-empty, digits only, and no
      leading zero except for `0` itself. */
  function NatToString(n: nat): (s: string)
    ensures |s| > 0 && AllDigits(s)
    ensures s[0] == '0' ==> n == 0 && s == "0"
    decreases n
  {
    if n < 10 then [DigitChar(n)] else NatToString(n / 10) + [DigitChar(n % 10)]
  }

  /** The value of a digit string, read most significant digit first. */
  function ValueOf(s: string): nat
    requires AllDigits(s)
  {
    if |s| == 0 then 0 else ValueOf(s[..|s| - 1]) * 10 + DigitValue(s[|s| - 1])
  }

  /** Parses a non-empty digit string; anything else is None. */
  function ParseNat(s: string): (r: Option<nat>)
    ensures r.Some? <==> |s| > 0 && AllDigits(s)
  {
    if |s| > 0 && AllDigits(s) then Some(ValueOf(s)) else None
  }

  /** Rendering then parsing gives the number back. */
  lemma {:induction false} ParseNatToString(n: nat)
    ensures ParseNat(NatToString(n)) == Some(n)
    decreases n
  {
    var s := NatToString(n);
    if n >= 10 {
      ParseNatToString(n / 10);
      assert s[..|s| - 1] == NatToString(n / 10);
      assert DigitValue(s[|s| - 1]) == n % 10;
      assert ValueOf(s) == (n / 10) * 10 + n % 10;
    }
  }

  /** Distinct numbers render as distinct numerals. */
  lemma NatToStringInjective(a: nat, b: nat)
    requires NatToString(a) == NatToString(b)
    ensures a == b
  {
    ParseNatToString(a);
    ParseNatToString(b);
  }

  /** Two digit strings each followed by text that does not start with a digit
      can only be equal when the digit parts are equal: a numeral's end is
      found without knowing its length. */
  lemma SplitAtNumeral(a: string, x: string, b: string, y: string)
    requires AllDigits(a) && AllDigits(b)
    requires |x| > 0 && !IsDigit(x[0])
    requires |y| > 0 && !IsDigit(y[0])
    requires a + x == b + y
    ensures a == b && x == y
  {
    assert a == (a + x)[..|a|];
    assert b == (b + y)[..|b|];
    assert x == (a + x)[|a|..];
    assert y == (b + y)[|b|..];
  }
}

=== FILE: drag_drop.dfy ===
/** The drag-and-drop exercise engine (`DragDropManager`): tokens dragged onto
    slots, a bounded undo history, and reset. The DOM is replaced by two maps:
    the engine's slots (its dropzones) and tokens (its drag items), each keyed
    by element id. */
module DragDrop {
  import opened Wrappers
  import opened Text

  type Id = string

  /** `maxHistory`: how many drops `undo` can walk back. */
  const MaxHistory: nat := 20

  /** A dropzone: its rendered content, its three classes, and its
      `data-answer` attribute (None when absent). */
  datatype Slot = Slot(content: string, filled: bool, correct: bool, incorrect: bool, answer: Option<string>)

  const EmptySlot := Slot("", false, false, false, None)

  /** A drag item: its text, its `used` and `dragging` classes, and its
      `draggable` property. */
  datatype Token = Token(text: string, used: bool, draggable: bool, dragging: bool)

  /** One history record: the dropzone, its content and answer before the
      drop, and the dragged token's id. */
  datatype Entry = Entry(slot: Id, previousContent: string, previousAnswer: Option<string>, token: Id)

  datatype Manager = Manager(slots: map<Id, Slot>, tokens: map<Id, Token>, history: seq<Entry>)

  /** The state the engine keeps: a bounded history whose entries name known
      elements, and a token draggable exactly when it is not used. */
  ghost predicate Valid(m: Manager) {
    && |m.history| <= MaxHistory
    && (forall i :: 0 <= i < |m.history| ==> m.history[i].slot in m.slots && m.history[i].token in m.tokens)
    && (forall t :: t in m.tokens ==> m.tokens[t].draggable == !m.tokens[t].used)
  }

  /** The freshly rendered exercise: empty slots, fresh tokens, no history. */
  function Fresh(slotIds: set<Id>, texts: map<Id, string>): (m: Manager)
    ensures Valid(m)
    ensures m.slots.Keys == slotIds && m.tokens.Keys == texts.Keys && m.history == []
    ensures forall z :: z in m.slots ==> m.slots[z] == EmptySlot
    ensures forall t :: t in m.tokens ==> m.tokens[t] == Token(texts[t], false, true, false)
  {
    Manager(map z | z in slotIds :: EmptySlot,
            map t | t in texts :: Token(texts[t], false, true, false),
            [])
  }

  // ---------------------------------------------------------------------------
  // History

  /** Appends `e`, then evicts the oldest entry if the log went over capacity. */
  function Push(h: seq<Entry>, e: Entry): (r: seq<Entry>)
    requires |h| <= MaxHistory
    ensures |r| <= MaxHistory && |r| > 0 && r[|r| - 1] == e
    ensures |h| < MaxHistory ==> r == h + [e]
    ensures |h| == MaxHistory ==> r == h[1..] + [e]
  {
    var h' := h + [e];
    if |h'| > MaxHistory then h'[1..] else h'
  }

  /** The last `n` elements of `s` (all of `s` when it is shorter). */
  function LastN(s: seq<Entry>, n: nat): (r: seq<Entry>)
    ensures |r| == if |s| <= n then |s| else n
    ensures r == s[|s| - |r|..]
  {
    if |s| <= n then s else s[|s| - n..]
  }

  // ---------------------------------------------------------------------------
  // handleDragStart

  /** The outcome of starting a drag on an element. */
  datatype DragStartResult = NotDragItem | Suppressed | Started(payload: Id)

  /** `handleDragStart`: a drag of a used token is suppressed; a drag of an
      unused token carries its id and marks it `dragging`; anything that is not
      a drag item is ignored. Slots and history never change. */
  function DragStart(m: Manager, target: Id): (r: (Manager, DragStartResult))
    ensures r.0.slots == m.slots && r.0.history == m.history && r.0.tokens.Keys == m.tokens.Keys
    ensures target !in m.tokens ==> r == (m, NotDragItem)
    ensures target in m.tokens && m.tokens[target].used ==> r == (m, Suppressed)
    ensures target in m.tokens && !m.tokens[target].used ==>
              && r.1 == Started(target)
              && r.0.tokens[target] == m.tokens[target].(dragging := true)
              && forall t :: t in m.tokens && t != target ==> r.0.tokens[t] == m.tokens[t]
  {
    if target !in m.tokens then (m, NotDragItem)
    else if m.tokens[target].used then (m, Suppressed)
    else (m.(tokens := m.tokens[target := m.tokens[target].(dragging := true)]), Started(target))
  }

  // ---------------------------------------------------------------------------
  // handleDrop

  /** A drop takes effect only over a dropzone, with a payload naming an
      existing token that is not yet used. */
  predicate CanDrop(m: Manager, token: Id, target: Id) {
    target in m.slots && token in m.tokens && !m.tokens[token].used
  }

  /** `handleDrop(payload, dropzone)`. On success it logs one entry with the
      slot's prior content and answer, shows the token's trimmed text in the
      slot, marks it filled, sets its answer to the token id without a leading
      `vd-`/`sf-`, and consumes the token. A filled slot is overwritten; the
      token it held keeps its `used` mark. Nothing else changes. */
  function Drop(m: Manager, token: Id, target: Id): (r: Manager)
    requires |m.history| <= MaxHistory
    ensures !CanDrop(m, token, target) ==> r == m
    ensures CanDrop(m, token, target) ==>
              && r.slots.Keys == m.slots.Keys && r.tokens.Keys == m.tokens.Keys
              && r.slots[target].content == Trim(m.tokens[token].text)
              && r.slots[target].filled
              && r.slots[target].answer == Some(StripAnswerPrefix(token))
              && r.slots[target].correct == m.slots[target].correct
              && r.slots[target].incorrect == m.slots[target].incorrect
              && r.tokens[token].used && !r.tokens[token].draggable
              && r.tokens[token].text == m.tokens[token].text
              && r.tokens[token].dragging == m.tokens[token].dragging
              && (forall z :: z in m.slots && z != target ==> r.slots[z] == m.slots[z])
              && (forall t :: t in m.tokens && t != token ==> r.tokens[t] == m.tokens[t])
              && r.history == Push(m.history, Entry(target, m.slots[target].content, m.slots[target].answer, token))
  {
    if !CanDrop(m, token, target) then m
    else
      var slot := m.slots[target];
      var entry := Entry(target, slot.content, slot.answer, token);
      Manager(
        m.slots[target := Placed(slot, m.tokens[token].text, token)],
        m.tokens[token := Consumed(m.tokens[token])],
        Push(m.history, entry))
  }

  /** A slot after a token was dropped on it. */
  function Placed(slot: Slot, text: string, token: Id): (r: Slot)
    ensures r.content == Trim(text) && r.filled && r.answer == Some(StripAnswerPrefix(token))
    ensures r.correct == slot.correct && r.incorrect == slot.incorrect
  {
    slot.(content := Trim(text), filled := true, answer := Some(StripAnswerPrefix(token)))
  }

  /** A token once dropped: used and no longer draggable. */
  function Consumed(t: Token): (r: Token)
    ensures r.used && !r.draggable && r.text == t.text && r.dragging == t.dragging
  {
    t.(used := true, draggable := false)
  }

  // ---------------------------------------------------------------------------
  // undo

  /** `undo`: with an empty history nothing happens. Otherwise the last entry
      is popped; its slot gets back the recorded content, loses its
      filled/correct/incorrect classes and its answer (the recorded answer is
      not restored), and its token becomes unused and draggable. Nothing
      else changes. */
  function Undo(m: Manager): (r: Manager)
    ensures |m.history| == 0 ==> r == m
    ensures |m.history| > 0 ==>
              var e := m.history[|m.history| - 1];
              && r.history == m.history[..|m.history| - 1]
              && r.slots.Keys == m.slots.Keys && r.tokens.Keys == m.tokens.Keys
              && (e.slot in m.slots ==> r.slots[e.slot] == Slot(e.previousContent, false, false, false, None))
              && (e.token in m.tokens ==> r.tokens[e.token] == m.tokens[e.token].(used := false, draggable := true))
              && (forall z :: z in m.slots && z != e.slot ==> r.slots[z] == m.slots[z])
              && (forall t :: t in m.tokens && t != e.token ==> r.tokens[t] == m.tokens[t])
  {
    if |m.history| == 0 then m
    else
      var e := m.history[|m.history| - 1];
      var slots := if e.slot in m.slots then m.slots[e.slot := Slot(e.previousContent, false, false, false, None)] else m.slots;
      var tokens := if e.token in m.tokens then m.tokens[e.token := m.tokens[e.token].(used := false, draggable := true)] else m.tokens;
      Manager(slots, tokens, m.history[..|m.history| - 1])
  }

  // ---------------------------------------------------------------------------
  // reset

  /** `reset`: empty history, every slot empty with no class and no answer,
      every token unused and draggable; token texts and `dragging` marks are
      kept. */
  function Reset(m: Manager): (r: Manager)
    ensures r.history == []
    ensures r.slots.Keys == m.slots.Keys && r.tokens.Keys == m.tokens.Keys
    ensures forall z :: z in r.slots ==> r.slots[z] == EmptySlot
    ensures forall t :: t in r.tokens ==>
              r.tokens[t] == Token(m.tokens[t].text, false, true, m.tokens[t].dragging)
  {
    Manager(map z | z in m.slots :: EmptySlot,
            map t | t in m.tokens :: m.tokens[t].(used := false, draggable := true),
            [])
  }

  // ---------------------------------------------------------------------------
  // Event sequences

  datatype Event = DragStartEvent(target: Id) | DropEvent(token: Id, target: Id) | UndoEvent | ResetEvent

  function Step(m: Manager, ev: Event): (r: Manager)
    requires Valid(m)
    ensures Valid(r)
    ensures r.slots.Keys == m.slots.Keys && r.tokens.Keys == m.tokens.Keys
    ensures forall t :: t in m.tokens ==> r.tokens[t].text == m.tokens[t].text
    ensures !ev.DragStartEvent? ==> forall t :: t in m.tokens ==> r.tokens[t].dragging == m.tokens[t].dragging
  {
    match ev
    case DragStartEvent(t) => DragStartKeepsValid(m, t); DragStart(m, t).0
    case DropEvent(t, z) => DropKeepsValid(m, t, z); Drop(m, t, z)
    case UndoEvent => UndoKeepsValid(m); Undo(m)
    case ResetEvent => Reset(m)
  }

  lemma DragStartKeepsValid(m: Manager, target: Id)
    requires Valid(m)
    ensures Valid(DragStart(m, target).0)
  {
  }

  lemma DropKeepsValid(m: Manager, token: Id, target: Id)
    requires Valid(m)
    ensures Valid(Drop(m, token, target))
  {
    if CanDrop(m, token, target) {
      var r := Drop(m, token, target);
      forall i | 0 <= i < |r.history|
        ensures r.history[i].slot in r.slots && r.history[i].token in r.tokens
      {
        if i < |r.history| - 1 {
          assert r.history[i] in m.history;
        }
      }
    }
  }

  lemma UndoKeepsValid(m: Manager)
    requires Valid(m)
    ensures Valid(Undo(m))
  {
    if |m.history| > 0 {
      var r := Undo(m);
      assert forall i :: 0 <= i < |r.history| ==> r.history[i] == m.history[i];
    }
  }

  /** The state after a sequence of events. Every reachable state is valid:
      in particular the history never holds more than 20 entries. */
  function Run(m: Manager, evs: seq<Event>): (r: Manager)
    requires Valid(m)
    ensures Valid(r) && |r.history| <= MaxHistory
    ensures r.slots.Keys == m.slots.Keys && r.tokens.Keys == m.tokens.Keys
    ensures forall t :: t in m.tokens ==> r.tokens[t].text == m.tokens[t].text
    decreases |evs|
  {
    if |evs| == 0 then m else Run(Step(m, evs[0]), evs[1..])
  }

  // ---------------------------------------------------------------------------
  // Properties

  /** A drop followed by an undo restores the slot's content and the token
      exactly, and the history too when it was below capacity (at capacity
      the entry evicted by the drop is gone for good). The slot ends with no
      classes and no answer, whatever it had before. */
  lemma DropThenUndo(m: Manager, token: Id, target: Id)
    requires Valid(m) && CanDrop(m, token, target)
    ensures var r := Undo(Drop(m, token, target));
            && r.slots == m.slots[target := Slot(m.slots[target].content, false, false, false, None)]
            && r.tokens == m.tokens
            && r.history == (if |m.history| < MaxHistory then m.history else m.history[1..])
  {
    var d := Drop(m, token, target);
    var e := Entry(target, m.slots[target].content, m.slots[target].answer, token);
    assert d.history == Push(m.history, e);
    PushThenPop(m.history, e);
    UndoReleases(d, e, m.slots, m.tokens);
  }

  /** Popping what was just pushed. */
  lemma PushThenPop(h: seq<Entry>, e: Entry)
    requires |h| <= MaxHistory
    ensures var p := Push(h, e);
            && |p| > 0 && p[|p| - 1] == e
            && p[..|p| - 1] == (if |h| < MaxHistory then h else h[1..])
  {
    var p := Push(h, e);
    if |h| < MaxHistory {
      assert p == h + [e];
    } else {
      assert p == h[1..] + [e];
    }
  }

  /** Undoing the entry `e` of a manager that differs from `slots`/`tokens`
      only at `e`'s slot and token gives those maps back, the slot emptied. */
  lemma UndoReleases(d: Manager, e: Entry, slots: map<Id, Slot>, tokens: map<Id, Token>)
    requires |d.history| > 0 && d.history[|d.history| - 1] == e
    requires e.slot in slots && e.token in tokens && !tokens[e.token].used && tokens[e.token].draggable
    requires d.slots.Keys == slots.Keys && d.tokens.Keys == tokens.Keys
    requires forall z :: z in slots && z != e.slot ==> d.slots[z] == slots[z]
    requires forall t :: t in tokens && t != e.token ==> d.tokens[t] == tokens[t]
    requires d.tokens[e.token] == Consumed(tokens[e.token])
    requires e.previousContent == slots[e.slot].content
    ensures Undo(d).slots == slots[e.slot := Slot(slots[e.slot].content, false, false, false, None)]
    ensures Undo(d).tokens == tokens
  {
    var r := Undo(d);
    assert r.tokens[e.token] == tokens[e.token];
    assert forall t :: t in tokens ==> r.tokens[t] == tokens[t];
  }

  /** Trimming the last `n` twice is trimming once. */
  lemma LastNAppend(s: seq<Entry>, t: seq<Entry>, n: nat)
    ensures LastN(LastN(s, n) + t, n) == LastN(s + t, n)
  {
    var a := LastN(s, n);
    assert a + t == (s + t)[|s| - |a|..];
    var r1 := LastN(a + t, n);
    var r2 := LastN(s + t, n);
    assert |r1| == |r2|;
    assert r1 == (s + t)[|s| - |a| + |a + t| - |r1|..];
  }

  datatype Placement = Placement(token: Id, target: Id)

  /** The state after a sequence of drops. */
  function DropAll(m: Manager, ps: seq<Placement>): (r: Manager)
    requires |m.history| <= MaxHistory
    ensures |r.history| <= MaxHistory
    decreases |ps|
  {
    if |ps| == 0 then m else DropAll(Drop(m, ps[0].token, ps[0].target), ps[1..])
  }

  /** The entry a drop records, if it takes effect. */
  function Logged1(m: Manager, p: Placement): (es: seq<Entry>)
    ensures |es| <= 1
  {
    if CanDrop(m, p.token, p.target) then [Entry(p.target, m.slots[p.target].content, m.slots[p.target].answer, p.token)] else []
  }

  /** The history entries the drops of `ps` record, oldest first: one per
      drop that takes effect. */
  function Logged(m: Manager, ps: seq<Placement>): (es: seq<Entry>)
    requires |m.history| <= MaxHistory
    ensures |es| <= |ps|
    decreases |ps|
  {
    if |ps| == 0 then []
    else Logged1(m, ps[0]) + Logged(Drop(m, ps[0].token, ps[0].target), ps[1..])
  }

  /** One drop appends what it logs and keeps the last 20. */
  lemma DropHistory(m: Manager, p: Placement)
    requires |m.history| <= MaxHistory
    ensures Drop(m, p.token, p.target).history == LastN(m.history + Logged1(m, p), MaxHistory)
  {
    if CanDrop(m, p.token, p.target) {
      PushIsLastN(m.history, Logged1(m, p)[0]);
    } else {
      assert m.history + [] == m.history;
    }
  }

  /** After any sequence of drops the history holds exactly the last
      min(n, 20) of all entries ever logged, in chronological order: the
      oldest are evicted first. */
  lemma {:induction false} DropAllHistory(m: Manager, ps: seq<Placement>)
    requires |m.history| <= MaxHistory
    ensures DropAll(m, ps).history == LastN(m.history + Logged(m, ps), MaxHistory)
    decreases |ps|
  {
    if |ps| == 0 {
      assert m.history + [] == m.history;
    } else {
      var m1 := Drop(m, ps[0].token, ps[0].target);
      var head, rest := Logged1(m, ps[0]), Logged(m1, ps[1..]);
      DropAllHistory(m1, ps[1..]);
      DropHistory(m, ps[0]);
      LastNChain(m.history, head, rest, m1.history);
      assert Logged(m, ps) == head + rest;
    }
  }

  lemma LastNChain(h: seq<Entry>, head: seq<Entry>, rest: seq<Entry>, x: seq<Entry>)
    requires x == LastN(h + head, MaxHistory)
    ensures LastN(x + rest, MaxHistory) == LastN(h + (head + rest), MaxHistory)
  {
    LastNAppend(h + head, rest, MaxHistory);
    assert h + head + rest == h + (head + rest);
  }

  lemma PushIsLastN(h: seq<Entry>, e: Entry)
    requires |h| <= MaxHistory
    ensures Push(h, e) == LastN(h + [e], MaxHistory)
  {
  }

  /** The state after `k` undos. */
  function UndoTimes(m: Manager, k: nat): Manager
    decreases k
  {
    if k == 0 then m else UndoTimes(Undo(m), k - 1)
  }

  /** `k` undos drop the `k` newest entries, and stop at an empty history:
      entries already evicted can never be undone. */
  lemma {:induction false} UndoTimesHistory(m: Manager, k: nat)
    ensures var n := if k <= |m.history| then k else |m.history|;
            UndoTimes(m, k).history == m.history[..|m.history| - n]
    decreases k
  {
    if k > 0 {
      UndoTimesHistory(Undo(m), k - 1);
      if |m.history| > 0 {
        assert Undo(m).history[..|Undo(m).history| - (if k - 1 <= |Undo(m).history| then k - 1 else |Undo(m).history|)]
            == m.history[..|m.history| - (if k <= |m.history| then k else |m.history|)];
      }
    } else {
      assert m.history[..|m.history|] == m.history;
    }
  }

  /** Reset is idempotent. */
  lemma ResetIdempotent(m: Manager)
    ensures Reset(Reset(m)) == Reset(m)
  {
  }

  /** Equal but for the `dragging` marks, which nothing in the engine clears. */
  predicate SameUpToDragging(a: Manager, b: Manager) {
    && a.slots == b.slots && a.history == b.history && a.tokens.Keys == b.tokens.Keys
    && forall t :: t in a.tokens ==> a.tokens[t].(dragging := false) == b.tokens[t].(dragging := false)
  }

  /** Reset after any sequence of events gives back the freshly rendered
      exercise, except that tokens once dragged keep their `dragging` mark. */
  lemma ResetAfterRun(slotIds: set<Id>, texts: map<Id, string>, evs: seq<Event>)
    ensures SameUpToDragging(Reset(Run(Fresh(slotIds, texts), evs)), Fresh(slotIds, texts))
  {
    var f := Fresh(slotIds, texts);
    var r := Reset(Run(f, evs));
    assert r.slots == f.slots;
  }

  /** Without drag starts, reset after any events restores the fresh state
      exactly. */
  lemma {:induction false} ResetAfterDrops(slotIds: set<Id>, texts: map<Id, string>, evs: seq<Event>)
    requires forall i :: 0 <= i < |evs| ==> !evs[i].DragStartEvent?
    ensures Reset(Run(Fresh(slotIds, texts), evs)) == Fresh(slotIds, texts)
  {
    var f := Fresh(slotIds, texts);
    RunKeepsDragging(f, evs);
    var r := Reset(Run(f, evs));
    assert r.slots == f.slots;
    assert r.tokens == f.tokens;
  }

  lemma {:induction false} RunKeepsDragging(m: Manager, evs: seq<Event>)
    requires Valid(m)
    requires forall i :: 0 <= i < |evs| ==> !evs[i].DragStartEvent?
    ensures forall t :: t in m.tokens ==> Run(m, evs).tokens[t].dragging == m.tokens[t].dragging
    decreases |evs|
  {
    if |evs| > 0 {
      RunKeepsDragging(Step(m, evs[0]), evs[1..]);
    }
  }

  /** A drop onto a slot filled by token `t1` overwrites it with `t2` and
      logs one entry, yet `t1` stays used and undraggable: "a token is used
      iff it sits in a slot" is not an invariant of the engine. */
  lemma DisplacedTokenStaysUsed(m: Manager, t1: Id, t2: Id, z: Id)
    requires Valid(m) && CanDrop(m, t1, z) && t2 in m.tokens && !m.tokens[t2].used && t1 != t2
    ensures var m2 := Drop(Drop(m, t1, z), t2, z);
            && m2.tokens[t1].used && !m2.tokens[t1].draggable
            && m2.slots[z].answer == Some(StripAnswerPrefix(t2))
            && |m2.history| == (if |m.history| + 2 <= MaxHistory then |m.history| + 2 else MaxHistory)
  {
    var m1 := Drop(m, t1, z);
    assert m1.tokens[t1].used && !m1.tokens[t1].draggable;
    assert |m1.history| == (if |m.history| + 1 <= MaxHistory then |m.history| + 1 else MaxHistory);
    assert CanDrop(m1, t2, z);
    var m2 := Drop(m1, t2, z);
    assert m2.tokens[t1] == m1.tokens[t1];
    assert |m2.history| == (if |m1.history| + 1 <= MaxHistory then |m1.history| + 1 else MaxHistory);
  }

  /** Undo does not use the answer the entry recorded: after two drops onto
      one slot, undoing the second shows the first token's text again but
      leaves the slot with no answer and no `filled` class, while the first
      token stays used. */
  lemma UndoForgetsRecordedAnswer(m: Manager, t1: Id, t2: Id, z: Id)
    requires Valid(m) && CanDrop(m, t1, z) && t2 in m.tokens && !m.tokens[t2].used && t1 != t2
    ensures var m2 := Drop(Drop(m, t1, z), t2, z);
            var m3 := Undo(m2);
            && m2.history[|m2.history| - 1].previousAnswer == Some(StripAnswerPrefix(t1))
            && m3.slots[z] == Slot(Trim(m.tokens[t1].text), false, false, false, None)
            && m3.tokens[t1].used
  {
    var m1 := Drop(m, t1, z);
    var m2 := Drop(m1, t2, z);
    assert m1.slots[z].content == Trim(m.tokens[t1].text);
    assert m1.tokens[t1].used;
    assert CanDrop(m1, t2, z);
    var e := Entry(z, m1.slots[z].content, m1.slots[z].answer, t2);
    assert m2.history[|m2.history| - 1] == e;
    assert m2.tokens[t1] == m1.tokens[t1];
  }
}

=== FILE: exercises.dfy ===
/** Scoring of the vocabulary drag exercise (`checkVocabDrag`) and the
    feedback line every exercise ends with (`showFeedback`). */
module Exercises {
  import opened Wrappers
  import opened Decimal
  import opened Percent
  import opened DragDrop

  /** The markup put into a wrongly answered slot, before the expected
      answer. */
  const WrongMark: string := "<span style=\"color:#b91c1c;\">✗</span> "

  /** The id of the `idx`-th gap of the vocabulary exercise. */
  function GapId(idx: nat): string {
    "vd-drop-" + NatToString(idx)
  }

  lemma GapIdInjective(i: nat, j: nat)
    requires GapId(i) == GapId(j)
    ensures i == j
  {
    assert NatToString(i) == GapId(i)[8..];
    assert NatToString(j) == GapId(j)[8..];
    NatToStringInjective(i, j);
  }

  // ---------------------------------------------------------------------------
  // showFeedback

  /** The feedback line: all correct, or how many were right and wrong with
      the rounded percentage (no finite percentage when `total` is zero). */
  datatype Feedback = AllCorrect(correct: nat, total: nat) | Partial(correct: nat, wrong: int, percent: Option<int>)

  /** `showFeedback(correct, total)`: the all-correct message exactly when
      the two numbers agree; otherwise the right and wrong counts, which add
      up to `total`, and the percentage rounded as `Math.round` does. */
  function ShowFeedback(correct: nat, total: nat): (f: Feedback)
    ensures f.AllCorrect? <==> correct == total
    ensures f.AllCorrect? ==> f.correct == correct && f.total == total
    ensures f.Partial? ==> f.correct == correct && f.correct + f.wrong == total
    ensures f.Partial? ==> (f.percent.Some? <==> total > 0)
    ensures f.Partial? && total > 0 && correct <= total ==> 0 <= f.percent.value <= 100
    ensures f.Partial? && total > 0 ==> f.percent == Some(RoundPercent(correct, total))
  {
    if correct == total then AllCorrect(correct, total)
    else Partial(correct, total - correct, if total > 0 then Some(RoundPercent(correct, total)) else None)
  }

  /** A score short of full marks can still read 100%. */
  lemma PartialCanShowHundred()
    ensures ShowFeedback(199, 200) == Partial(199, 1, Some(100))
  {
    HundredPercent(199, 200);
  }

  // ---------------------------------------------------------------------------
  // checkVocabDrag

  /** A gap is right when it has a non-empty answer equal to the expected
      one after case folding (`lower` stands for `toLowerCase`). */
  predicate Matches(user: Option<string>, expected: string, lower: string -> string) {
    user.Some? && user.value != "" && lower(user.value) == lower(expected)
  }

  /** One gap after checking: marked correct, or marked incorrect and showing
      the expected answer; its answer attribute is kept. */
  function MarkGap(slot: Slot, expected: string, lower: string -> string): (r: Slot)
    ensures r.answer == slot.answer && r.filled == slot.filled
    ensures r.correct <==> Matches(slot.answer, expected, lower)
    ensures r.incorrect <==> !Matches(slot.answer, expected, lower)
    ensures r.incorrect ==> r.content == WrongMark + lower(expected)
    ensures r.correct ==> r.content == slot.content
  {
    var cleared := slot.(correct := false, incorrect := false);
    if Matches(slot.answer, expected, lower) then cleared.(correct := true)
    else cleared.(incorrect := true, content := WrongMark + lower(expected))
  }

  /** The ids of the first `n` gaps, in order. */
  function GapIds(n: nat): (ids: seq<Id>)
    ensures |ids| == n && forall j :: 0 <= j < n ==> ids[j] == GapId(j)
    ensures DistinctKeys(ids)
  {
    var ids := seq(n, j requires 0 <= j => GapId(j));
    forall a, b | 0 <= a < b < n
      ensures ids[a] != ids[b]
    {
      if ids[a] == ids[b] {
        GapIdInjective(a, b);
      }
    }
    ids
  }

  predicate DistinctKeys<K(==)>(ids: seq<K>) {
    forall a, b :: 0 <= a < b < |ids| ==> ids[a] != ids[b]
  }

  /** The number of the first `n` gaps that exist and are answered right:
      the reference score, read off the slots before any marking. `ids[j]`
      is the key of the gap whose expected answer is `answers[j]`. */
  function Score<K(==)>(answers: seq<string>, ids: seq<K>, n: nat, slots: map<K, Slot>, lower: string -> string): (k: nat)
    requires |ids| == |answers| && n <= |answers|
    ensures k <= n
  {
    if n == 0 then 0
    else Score(answers, ids, n - 1, slots, lower)
         + (if ids[n - 1] in slots && Matches(slots[ids[n - 1]].answer, answers[n - 1], lower) then 1 else 0)
  }

  /** When the first `n` gaps exist, the score is full exactly when each of
      them matches. */
  lemma {:induction false} FullScoreIffAllMatch<K>(answers: seq<string>, ids: seq<K>, n: nat, slots: map<K, Slot>, lower: string -> string)
    requires |ids| == |answers| && n <= |answers|
    requires forall j :: 0 <= j < n ==> ids[j] in slots
    ensures Score(answers, ids, n, slots, lower) == n <==>
            forall j :: 0 <= j < n ==> Matches(slots[ids[j]].answer, answers[j], lower)
  {
    if n > 0 {
      FullScoreIffAllMatch(answers, ids, n - 1, slots, lower);
    }
  }

  /** The index of the first gap missing from `slots` (`|ids|` if none is). */
  function FirstMissing<K>(ids: seq<K>, slots: map<K, Slot>): (n: nat)
    ensures n <= |ids| && forall j :: 0 <= j < n ==> ids[j] in slots
    ensures n < |ids| ==> ids[n] !in slots
  {
    if |ids| == 0 || ids[0] !in slots then 0 else 1 + FirstMissing(ids[1..], slots)
  }

  /** The slots after the first `n` gaps are marked one after another: the
      reference for the loop of `checkVocabDrag`. */
  function MarkPrefix<K>(slots: map<K, Slot>, ids: seq<K>, answers: seq<string>, n: nat, lower: string -> string): (m: map<K, Slot>)
    requires n <= |ids| == |answers| && forall j :: 0 <= j < n ==> ids[j] in slots
    ensures m.Keys == slots.Keys
  {
    if n == 0 then slots
    else MarkPrefix(slots, ids, answers, n - 1, lower)[ids[n - 1] := MarkGap(slots[ids[n - 1]], answers[n - 1], lower)]
  }

  /** A slot that is none of the first `n` gaps is left as it was. */
  lemma {:induction false} MarkPrefixFrame<K>(slots: map<K, Slot>, ids: seq<K>, answers: seq<string>, n: nat, lower: string -> string, z: K)
    requires n <= |ids| == |answers| && forall j :: 0 <= j < n ==> ids[j] in slots
    requires z in slots && forall j :: 0 <= j < n ==> ids[j] != z
    ensures MarkPrefix(slots, ids, answers, n, lower)[z] == slots[z]
  {
    if n > 0 {
      MarkPrefixFrame(slots, ids, answers, n - 1, lower, z);
    }
  }

  /** With distinct keys, gap `k` ends up marked from its own answer, the
      later gaps never touching it. */
  lemma {:induction false} MarkPrefixMarks<K>(slots: map<K, Slot>, ids: seq<K>, answers: seq<string>, n: nat, lower: string -> string, k: nat)
    requires n <= |ids| == |answers| && forall j :: 0 <= j < n ==> ids[j] in slots
    requires DistinctKeys(ids) && k < n
    ensures MarkPrefix(slots, ids, answers, n, lower)[ids[k]] == MarkGap(slots[ids[k]], answers[k], lower)
  {
    if k < n - 1 {
      assert ids[k] != ids[n - 1];
      MarkPrefixMarks(slots, ids, answers, n - 1, lower, k);
    }
  }

  /** The loop of `checkVocabDrag` over gaps with distinct keys `ids`: each
      gap in turn is marked from its own answer and counted when right,
      until a missing gap (`stop`) makes `drop.classList` throw. Every slot
      that is not a marked gap, the gaps after a missing one included, is
      left as it was. */
  method MarkGaps<K(==)>(answers: seq<string>, ids: seq<K>, slots: map<K, Slot>, lower: string -> string)
    returns (marked: map<K, Slot>, correct: nat, stop: Option<nat>)
    requires |ids| == |answers| && DistinctKeys(ids)
    ensures forall z :: z in marked <==> z in slots
    ensures stop.None? <==> forall j :: 0 <= j < |ids| ==> ids[j] in slots
    ensures stop.Some? ==> stop.value < |ids| && ids[stop.value] !in slots
    ensures var n := if stop.Some? then stop.value else |ids|;
            forall j :: 0 <= j < n ==> ids[j] in slots && marked[ids[j]] == MarkGap(slots[ids[j]], answers[j], lower)
    ensures stop.None? ==> correct == Score(answers, ids, |ids|, slots, lower)
    ensures var n := if stop.Some? then stop.value else |ids|;
            forall z :: z in slots && (forall j :: 0 <= j < n ==> z != ids[j]) ==> marked[z] == slots[z]
  {
    var n := FirstMissing(ids, slots);
    marked, correct := MarkPrefix(slots, ids, answers, n, lower), Score(answers, ids, n, slots, lower);
    forall j | 0 <= j < n
      ensures marked[ids[j]] == MarkGap(slots[ids[j]], answers[j], lower)
    {
      MarkPrefixMarks(slots, ids, answers, n, lower, j);
    }
    forall z | z in slots && (forall j :: 0 <= j < n ==> z != ids[j])
      ensures marked[z] == slots[z]
    {
      MarkPrefixFrame(slots, ids, answers, n, lower, z);
    }
    if n < |ids| {
      stop := Some(n);
    } else {
      stop := None;
    }
  }

  /** The outcome of `checkVocabDrag`: the marked slots and the numbers it
      hands to `showFeedback` (which shows `ShowFeedback(correct, total)`),
      or the slots as far as they were marked when a missing gap made
      `drop.classList` throw. */
  datatype CheckOutcome =
    | Checked(slots: map<Id, Slot>, correct: nat, total: nat)
    | Threw(slots: map<Id, Slot>)

  /** `checkVocabDrag`: it completes exactly when every gap `vd-drop-<j>`
      exists (`GapIds`); then every gap is marked from its own answer, the
      number right is the reference score, and it reaches the number of gaps
      (so `showFeedback` says all correct) exactly when every gap is answered
      right. Otherwise it stops at the first missing gap with the earlier
      gaps already marked. Other slots never change. */
  method CheckVocabDrag(answers: seq<string>, slots: map<Id, Slot>, lower: string -> string) returns (r: CheckOutcome)
    ensures forall z :: z in r.slots <==> z in slots
    ensures var ids := GapIds(|answers|);
            r.Checked? <==> forall j :: 0 <= j < |answers| ==> ids[j] in slots
    ensures r.Checked? ==> r.total == |answers|
    ensures r.Checked? ==> r.correct == Score(answers, GapIds(|answers|), |answers|, slots, lower)
    ensures var ids := GapIds(|answers|);
            r.Checked? ==> (r.correct == r.total <==>
                              forall j :: 0 <= j < |answers| ==> Matches(slots[ids[j]].answer, answers[j], lower))
    ensures var ids := GapIds(|answers|);
            r.Checked? ==> forall j :: 0 <= j < |answers| ==> r.slots[ids[j]] == MarkGap(slots[ids[j]], answers[j], lower)
    ensures var ids := GapIds(|answers|);
            r.Threw? ==> exists k :: (0 <= k < |answers| && ids[k] !in slots &&
                           (forall j :: 0 <= j < k ==> ids[j] in slots && r.slots[ids[j]] == MarkGap(slots[ids[j]], answers[j], lower)) &&
                           forall j :: k < j < |answers| && ids[j] in slots ==> r.slots[ids[j]] == slots[ids[j]])
    ensures forall z :: z in slots && z !in GapIds(|answers|) ==> r.slots[z] == slots[z]
  {
    var ids := GapIds(|answers|);
    var marked, correct, stop := MarkGaps(answers, ids, slots, lower);
    if stop.Some? {
      return Threw(marked);
    }
    FullScoreIffAllMatch(answers, ids, |answers|, slots, lower);
    return Checked(marked, correct, |answers|);
  }
}

=== FILE: percent.dfy ===
/** `Math.round(part / whole * 100)` for a non-negative ratio, in integers. */
module Percent {

  /** The percentage nearest to `100 * part / whole`, halves rounded up: it
      differs from the exact ratio by at most one half, and stays within
      0..100 when `part <= whole`. */
  function RoundPercent(part: nat, whole: nat): (r: int)
    requires whole > 0
    ensures 200 * part - whole < 2 * whole * r <= 200 * part + whole
    ensures r >= 0
    ensures part <= whole ==> r <= 100
  {
    RoundFacts(part, whole);
    (200 * part + whole) / (2 * whole)
  }

  lemma RoundFacts(part: nat, whole: nat)
    requires whole > 0
    ensures var q := (200 * part + whole) / (2 * whole);
            && 200 * part - whole < 2 * whole * q <= 200 * part + whole
            && q >= 0
            && (part <= whole ==> q <= 100)
  {
    var a, b := 200 * part + whole, 2 * whole;
    var q := a / b;
    DivisionFacts(a, b);
    assert 2 * whole * q == b * q;
    if part <= whole {
      DivisionBelow(a, b, 100);
    }
  }

  /** Euclidean division of a non-negative number, spelled out. */
  lemma DivisionFacts(a: nat, b: nat)
    requires b > 0
    ensures a == b * (a / b) + a % b && 0 <= a % b < b
    ensures a / b >= 0
  {
  }

  /** A quotient below `b * (k + 1)` is at most `k`. */
  lemma DivisionBelow(a: nat, b: nat, k: nat)
    requires b > 0 && a < b * (k + 1)
    ensures a / b <= k
  {
    if a / b > k {
      MulMonotone(b, k + 1, a / b);
    }
  }

  lemma MulMonotone(b: nat, x: nat, y: nat)
    requires x <= y
    ensures b * x <= b * y
  {
  }

  /** 100% is shown exactly when at least 99.5% is reached, so not only
      when `part == whole`. */
  lemma HundredPercent(part: nat, whole: nat)
    requires 0 < whole && part <= whole
    ensures RoundPercent(part, whole) == 100 <==> 200 * part >= 199 * whole
    ensures part == whole ==> RoundPercent(part, whole) == 100
  {
    var r := RoundPercent(part, whole);
    if 200 * part >= 199 * whole && r <= 99 {
      MulMonotone(2 * whole, r, 99);
    }
  }

  /** 0% is shown exactly below 0.5%. */
  lemma ZeroPercent(part: nat, whole: nat)
    requires 0 < whole
    ensures RoundPercent(part, whole) == 0 <==> 200 * part < whole
  {
    var r := RoundPercent(part, whole);
    if r >= 1 {
      MulMonotone(2 * whole, 1, r);
    }
  }
}

=== FILE: stars.dfy ===
/** Star ratings of flashcards: the per-card counter moved by "correct" and
    "review", the rule that enables those two buttons, how a count is drawn,
    how saved counts are merged in when a unit opens, and the unit
    statistics. Counts are kept per card id; persistence is left out. */
module Stars {
  import opened Wrappers
  import opened Percent

  type CardId = string

  /** A card's count is "mastered" at this many stars. */
  const MaxStars: int := 5

  /** `starData`: the count of every card seen so far. */
  type StarData = map<CardId, int>

  predicate InRange(stars: StarData) {
    forall id :: id in stars ==> 0 <= stars[id] <= MaxStars
  }

  /** `starData[id] || 0`: a missing card counts as zero. */
  function StarsOf(stars: StarData, id: CardId): int {
    if id in stars then stars[id] else 0
  }

  // ---------------------------------------------------------------------------
  // markCorrect / markReview

  /** `markCorrect`: one more star for a known card below five; otherwise
      (five stars, or a card missing from `starData`) nothing changes. Only
      that card's count can change. */
  function MarkCorrect(stars: StarData, id: CardId): (r: StarData)
    ensures r.Keys == stars.Keys
    ensures forall k :: k in stars && k != id ==> r[k] == stars[k]
    ensures id in stars && stars[id] < MaxStars ==> r[id] == stars[id] + 1
    ensures !(id in stars && stars[id] < MaxStars) ==> r == stars
  {
    if id in stars && stars[id] < MaxStars then stars[id := stars[id] + 1] else stars
  }

  /** `markReview`: one star less for a known card above zero; otherwise
      nothing changes. */
  function MarkReview(stars: StarData, id: CardId): (r: StarData)
    ensures r.Keys == stars.Keys
    ensures forall k :: k in stars && k != id ==> r[k] == stars[k]
    ensures id in stars && stars[id] > 0 ==> r[id] == stars[id] - 1
    ensures !(id in stars && stars[id] > 0) ==> r == stars
  {
    if id in stars && stars[id] > 0 then stars[id := stars[id] - 1] else stars
  }

  /** Both buttons keep every count within 0..5. */
  lemma MarksKeepRange(stars: StarData, id: CardId)
    requires InRange(stars)
    ensures InRange(MarkCorrect(stars, id)) && InRange(MarkReview(stars, id))
  {
  }

  /** Starting in range, "review" undoes "correct" whenever "correct" had an
      effect, and the other way round. */
  lemma MarksUndoEachOther(stars: StarData, id: CardId)
    requires InRange(stars) && id in stars
    ensures stars[id] < MaxStars ==> MarkReview(MarkCorrect(stars, id), id) == stars
    ensures stars[id] > 0 ==> MarkCorrect(MarkReview(stars, id), id) == stars
  {
  }

  // ---------------------------------------------------------------------------
  // updateButtonsState

  datatype Buttons = Buttons(correctDisabled: bool, reviewDisabled: bool)

  /** `updateButtonsState`: "correct" is disabled from five stars on and
      "review" at zero stars or fewer; a missing card counts as zero. */
  function ButtonsFor(stars: StarData, id: CardId): (b: Buttons)
    ensures !b.correctDisabled <==> StarsOf(stars, id) < MaxStars
    ensures !b.reviewDisabled <==> StarsOf(stars, id) > 0
  {
    var n := StarsOf(stars, id);
    Buttons(n >= MaxStars, n <= 0)
  }

  /** For a known card, a button is enabled exactly when pressing it
      changes the count. */
  lemma EnabledIffEffective(stars: StarData, id: CardId)
    requires id in stars
    ensures !ButtonsFor(stars, id).correctDisabled <==> MarkCorrect(stars, id) != stars
    ensures !ButtonsFor(stars, id).reviewDisabled <==> MarkReview(stars, id) != stars
  {
    if stars[id] < MaxStars {
      assert MarkCorrect(stars, id)[id] != stars[id];
    }
    if stars[id] > 0 {
      assert MarkReview(stars, id)[id] != stars[id];
    }
  }

  /** For a card missing from `starData`, "correct" is enabled but pressing
      it does nothing. */
  lemma MissingCardCorrectIsInert(stars: StarData, id: CardId)
    requires id !in stars
    ensures !ButtonsFor(stars, id).correctDisabled && MarkCorrect(stars, id) == stars
  {
  }

  // ---------------------------------------------------------------------------
  // createStars

  datatype Label = StartPractice | KeepGoing | Confident | Mastered

  /** The label under the stars: "start" at zero, "keep going" below three
      (negative counts included), "confident" below five, "mastered" from
      five on. */
  function LabelFor(count: int): (l: Label)
    ensures l == StartPractice <==> count == 0
    ensures l == KeepGoing <==> count != 0 && count < 3
    ensures l == Confident <==> 3 <= count < 5
    ensures l == Mastered <==> count >= 5
  {
    if count == 0 then StartPractice
    else if count < 3 then KeepGoing
    else if count < 5 then Confident
    else Mastered
  }

  function Rank(l: Label): nat {
    match l
    case StartPractice => 0
    case KeepGoing => 1
    case Confident => 2
    case Mastered => 3
  }

  /** More stars never show a lower label. */
  lemma LabelMonotone(a: int, b: int)
    requires 0 <= a <= b
    ensures Rank(LabelFor(a)) <= Rank(LabelFor(b))
  {
  }

  /** `createStars`: five stars, the first `count` of them active. */
  function StarRow(count: int): (row: seq<bool>)
    ensures |row| == 5
    ensures forall i :: 0 <= i < 5 ==> (row[i] <==> i < count)
  {
    seq(5, i => i < count)
  }

  function CountActive(row: seq<bool>): nat {
    if |row| == 0 then 0 else (if row[0] then 1 else 0) + CountActive(row[1..])
  }

  /** The row shows the count clamped to 0..5. */
  lemma StarRowShowsCount(count: int)
    ensures CountActive(StarRow(count)) == if count < 0 then 0 else if count > 5 then 5 else count
  {
    ActivePrefixCount(StarRow(count), count);
  }

  /** A row lit exactly below position `c` has min(max(c, 0), |row|) lit
      stars. */
  lemma {:induction false} ActivePrefixCount(row: seq<bool>, c: int)
    requires forall i :: 0 <= i < |row| ==> (row[i] <==> i < c)
    ensures CountActive(row) == if c < 0 then 0 else if c > |row| then |row| else c
    decreases |row|
  {
    if |row| > 0 {
      ActivePrefixCount(row[1..], c - 1);
    }
  }

  // ---------------------------------------------------------------------------
  // initStarData

  /** The ids of the loaded unit's words and sentences; either list may be
      absent. */
  datatype UnitCards = UnitCards(wordIds: Option<seq<CardId>>, sentenceIds: Option<seq<CardId>>)

  function IdsOf(ids: Option<seq<CardId>>): seq<CardId> {
    ids.GetOr([])
  }

  /** `savedStarData[id] || 0`. */
  function SavedOrZero(saved: map<CardId, int>, id: CardId): int {
    if id in saved then saved[id] else 0
  }

  /** `initStarData`: every card of the unit gets its saved count (zero when
      none) and a default of zero; counts of other units' cards stay. With
      no unit loaded nothing changes. */
  method InitStarData(unit: Option<UnitCards>, saved: map<CardId, int>, stars: StarData, defaults: map<CardId, int>)
    returns (stars': StarData, defaults': map<CardId, int>)
    ensures unit.None? ==> stars' == stars && defaults' == defaults
    ensures unit.Some? ==>
              var ids := IdsOf(unit.value.wordIds) + IdsOf(unit.value.sentenceIds);
              && (forall k :: k in stars' <==> k in stars || k in ids)
              && (forall k :: k in defaults' <==> k in defaults || k in ids)
              && (forall k :: k in ids ==> stars'[k] == SavedOrZero(saved, k) && defaults'[k] == 0)
              && (forall k :: k in stars && k !in ids ==> stars'[k] == stars[k])
              && (forall k :: k in defaults && k !in ids ==> defaults'[k] == defaults[k])
    ensures InRange(stars) && InRange(saved) ==> InRange(stars')
  {
    stars', defaults' := stars, defaults;
    if unit.None? {
      return;
    }
    var ids := IdsOf(unit.value.wordIds) + IdsOf(unit.value.sentenceIds);
    var n := 0;
    while n < |ids|
      invariant 0 <= n <= |ids|
      invariant forall k :: k in stars' <==> k in stars || k in ids[..n]
      invariant forall k :: k in defaults' <==> k in defaults || k in ids[..n]
      invariant forall k :: k in ids[..n] ==> stars'[k] == SavedOrZero(saved, k) && defaults'[k] == 0
      invariant forall k :: k in stars && k !in ids[..n] ==> stars'[k] == stars[k]
      invariant forall k :: k in defaults && k !in ids[..n] ==> defaults'[k] == defaults[k]
    {
      assert ids[..n + 1] == ids[..n] + [ids[n]];
      defaults' := defaults'[ids[n] := 0];
      stars' := stars'[ids[n] := SavedOrZero(saved, ids[n])];
      n := n + 1;
    }
    assert ids[..n] == ids;
  }

  // ---------------------------------------------------------------------------
  // updateStats

  /** One column of the statistics panel. */
  datatype Tally = Tally(total: nat, mastered: nat, review: nat, mastery: int)

  /** The number of `ids` whose count is exactly five. */
  function CountMastered(stars: StarData, ids: seq<CardId>): (n: nat)
    ensures n <= |ids|
  {
    if |ids| == 0 then 0
    else (if StarsOf(stars, ids[0]) == MaxStars then 1 else 0) + CountMastered(stars, ids[1..])
  }

  /** The number of `ids` whose count is below five. */
  function CountReview(stars: StarData, ids: seq<CardId>): (n: nat)
    ensures n <= |ids|
  {
    if |ids| == 0 then 0
    else (if StarsOf(stars, ids[0]) < MaxStars then 1 else 0) + CountReview(stars, ids[1..])
  }

  /** The mastery percentage: zero for an empty list. */
  function Mastery(mastered: nat, total: nat): (p: int)
    requires mastered <= total
    ensures 0 <= p <= 100
    ensures total == 0 ==> p == 0
    ensures total > 0 ==> p == RoundPercent(mastered, total)
  {
    if total > 0 then RoundPercent(mastered, total) else 0
  }

  function TallyOf(stars: StarData, ids: seq<CardId>): Tally {
    var m := CountMastered(stars, ids);
    Tally(|ids|, m, CountReview(stars, ids), Mastery(m, |ids|))
  }

  /** Every card is either mastered or to review, once no count exceeds
      five; and the percentage is within 0..100. */
  lemma {:induction false} TallyPartition(stars: StarData, ids: seq<CardId>)
    requires forall i :: 0 <= i < |ids| ==> StarsOf(stars, ids[i]) <= MaxStars
    ensures var t := TallyOf(stars, ids);
            t.mastered + t.review == t.total && 0 <= t.mastery <= 100
  {
    if |ids| > 0 {
      TallyPartition(stars, ids[1..]);
    }
  }

  /** A card whose count is above five (possible only from saved data) adds
      to neither the mastered nor the to-review count, wherever it appears. */
  lemma OverfullCardUncounted(stars: StarData, id: CardId, ids: seq<CardId>)
    requires StarsOf(stars, id) > MaxStars
    ensures CountMastered(stars, [id] + ids) == CountMastered(stars, ids)
    ensures CountReview(stars, [id] + ids) == CountReview(stars, ids)
  {
    assert ([id] + ids)[1..] == ids;
  }

  /** A one-card list holding a count of six: listed, but in neither column. */
  lemma OverfullCardSample()
    ensures var t := TallyOf(map["w1" := 6], ["w1"]);
            t.total == 1 && t.mastered == 0 && t.review == 0
  {
  }

  /** The statistics panel: words, sentences, and the unit's overall
      percentage, which is only computed when the unit has a title. */
  datatype Stats = Stats(words: Tally, sentences: Tally, overall: Option<int>)

  /** `updateStats`: no unit loaded gives no statistics. */
  function UpdateStats(unit: Option<UnitCards>, hasTitle: bool, stars: StarData): (s: Option<Stats>)
    ensures unit.None? <==> s.None?
    ensures s.Some? ==>
              && s.value.words.total == |IdsOf(unit.value.wordIds)|
              && s.value.sentences.total == |IdsOf(unit.value.sentenceIds)|
              && (s.value.overall.Some? <==> hasTitle)
              && (hasTitle ==> 0 <= s.value.overall.value <= 100)
              && (hasTitle && s.value.words.total + s.value.sentences.total == 0 ==> s.value.overall == Some(0))
    ensures s.Some? ==> && s.value.words == TallyOf(stars, IdsOf(unit.value.wordIds))
                        && s.value.sentences == TallyOf(stars, IdsOf(unit.value.sentenceIds))
                        && 0 <= s.value.words.mastery <= 100 && 0 <= s.value.sentences.mastery <= 100
    ensures s.Some? && hasTitle ==>
              s.value.overall == Some(Mastery(s.value.words.mastered + s.value.sentences.mastered,
                                              s.value.words.total + s.value.sentences.total))
  {
    match unit
    case None => None
    case Some(u) =>
      var w := TallyOf(stars, IdsOf(u.wordIds));
      var t := TallyOf(stars, IdsOf(u.sentenceIds));
      var overall := if hasTitle then Some(Mastery(w.mastered + t.mastered, w.total + t.total)) else None;
      Some(Stats(w, t, overall))
  }

  /** With every saved count within 0..5, each column of the panel splits
      into mastered and to review, and every percentage shown, the overall
      one included, lies within 0..100. */
  lemma {:induction false} UpdateStatsPartition(unit: UnitCards, hasTitle: bool, stars: StarData)
    requires InRange(stars)
    ensures var s := UpdateStats(Some(unit), hasTitle, stars).value;
            && s.words.mastered + s.words.review == s.words.total
            && s.sentences.mastered + s.sentences.review == s.sentences.total
            && 0 <= s.words.mastery <= 100 && 0 <= s.sentences.mastery <= 100
            && (hasTitle ==> 0 <= s.overall.value <= 100)
  {
    var w, t := IdsOf(unit.wordIds), IdsOf(unit.sentenceIds);
    assert forall i :: 0 <= i < |w| ==> StarsOf(stars, w[i]) <= MaxStars;
    assert forall i :: 0 <= i < |t| ==> StarsOf(stars, t[i]) <= MaxStars;
    TallyPartition(stars, w);
    TallyPartition(stars, t);
  }
}

=== FILE: text.dfy ===
/** String helpers the drag-and-drop engine applies to element text and ids:
    ECMAScript `String.prototype.trim` and the answer-id prefix strip
    `id.replace(/^vd-|^sf-/, '')`. */
module Text {

  /** The characters `trim` removes: ECMAScript WhiteSpace (tab, vertical tab,
      form feed, space, no-break space, byte order mark and the Unicode
      space separators) and LineTerminator (LF, CR, LS, PS). */
  predicate IsJsSpace(c: char) {
    || c == '\t' || c == '\U{000B}' || c == '\U{000C}' || c == ' '
    || c == '\U{00A0}' || c == '\U{FEFF}'
    || c == '\U{1680}' || ('\U{2000}' <= c <= '\U{200A}')
    || c == '\U{202F}' || c == '\U{205F}' || c == '\U{3000}'
    || c == '\n' || c == '\r' || c == '\U{2028}' || c == '\U{2029}'
  }

  predicate AllSpace(s: string) {
    forall i :: 0 <= i < |s| ==> IsJsSpace(s[i])
  }

  /** Every character of `s` in `[lo, hi)` is a space. */
  predicate SpaceBetween(s: string, lo: int, hi: int) {
    forall k :: lo <= k < hi && 0 <= k < |s| ==> IsJsSpace(s[k])
  }

  /** No space at either end. */
  predicate Trimmed(s: string) {
    |s| > 0 ==> !IsJsSpace(s[0]) && !IsJsSpace(s[|s| - 1])
  }

  /** The first index at or after `i` that does not hold a space (`|s|` if
      none does). */
  function SkipSpaces(s: string, i: nat): (r: nat)
    requires i <= |s|
    ensures i <= r <= |s| && SpaceBetween(s, i, r)
    ensures r < |s| ==> !IsJsSpace(s[r])
    decreases |s| - i
  {
    if i < |s| && IsJsSpace(s[i]) then SkipSpaces(s, i + 1) else i
  }

  /** The last index at or before `j`, and after `lo`, that does not follow
      a space (`lo` if every character of `[lo, j)` is one). */
  function SkipSpacesBack(s: string, lo: nat, j: nat): (r: nat)
    requires lo <= j <= |s|
    ensures lo <= r <= j && SpaceBetween(s, r, j)
    ensures r > lo ==> !IsJsSpace(s[r - 1])
    decreases j
  {
    if j > lo && IsJsSpace(s[j - 1]) then SkipSpacesBack(s, lo, j - 1) else j
  }

  /** `s.trim()`: the infix of `s` left after removing all spaces at both
      ends. The two ensures determine the result uniquely (`TrimPadded`). */
  function Trim(s: string): (r: string)
    ensures Trimmed(r)
    ensures exists i :: 0 <= i <= |s| - |r| && r == s[i..i + |r|]
                        && AllSpace(s[..i]) && AllSpace(s[i + |r|..])
  {
    var i := SkipSpaces(s, 0);
    var j := SkipSpacesBack(s, i, |s|);
    SpaceAround(s, i, j);
    s[i..j]
  }

  /** The infix `s[i..j]` with only spaces before and after it. */
  lemma SpaceAround(s: string, i: nat, j: nat)
    requires i <= j <= |s| && SpaceBetween(s, 0, i) && SpaceBetween(s, j, |s|)
    requires i < |s| ==> !IsJsSpace(s[i])
    requires j > i ==> !IsJsSpace(s[j - 1])
    ensures Trimmed(s[i..j])
    ensures exists k :: 0 <= k <= |s| - (j - i) && s[i..j] == s[k..k + (j - i)]
                        && AllSpace(s[..k]) && AllSpace(s[k + (j - i)..])
  {
    assert AllSpace(s[..i]) && AllSpace(s[j..]);
  }

  /** Trimming is idempotent. */
  lemma TrimIdempotent(s: string)
    ensures Trim(Trim(s)) == Trim(s)
  {
    TrimKeepsTrimmed(Trim(s));
  }

  /** A string with no space at either end is its own trim. */
  lemma TrimKeepsTrimmed(s: string)
    requires Trimmed(s)
    ensures Trim(s) == s
  {
    assert SkipSpaces(s, 0) == 0;
    assert SkipSpacesBack(s, 0, |s|) == |s|;
  }

  /** Spaces added around a trimmed string are exactly what `trim` removes. */
  lemma TrimPadded(a: string, s: string, b: string)
    requires AllSpace(a) && AllSpace(b) && Trimmed(s)
    ensures Trim(a + s + b) == s
  {
    var x := a + s + b;
    assert forall k :: 0 <= k < |a| ==> x[k] == a[k];
    assert forall k :: 0 <= k < |s| ==> x[|a| + k] == s[k];
    assert forall k :: |a| + |s| <= k < |x| ==> x[k] == b[k - |a| - |s|];
    if |s| == 0 {
      assert SpaceBetween(x, 0, |x|);
      SkipAll(x, 0);
    } else {
      SkipUpTo(x, 0, |a|);
      SkipBackDownTo(x, |a|, |x|, |a| + |s|);
      assert x[|a|..|a| + |s|] == s;
    }
  }

  /** Skipping from `i` over spaces up to a non-space at `n` stops at `n`. */
  lemma {:induction false} SkipUpTo(s: string, i: nat, n: nat)
    requires i <= n < |s| && SpaceBetween(s, i, n) && !IsJsSpace(s[n])
    ensures SkipSpaces(s, i) == n
    decreases n - i
  {
    if i < n {
      SkipUpTo(s, i + 1, n);
    }
  }

  /** Skipping over nothing but spaces reaches the end. */
  lemma {:induction false} SkipAll(s: string, i: nat)
    requires i <= |s| && SpaceBetween(s, i, |s|)
    ensures SkipSpaces(s, i) == |s|
    decreases |s| - i
  {
    if i < |s| {
      SkipAll(s, i + 1);
    }
  }

  /** Skipping back from `j` over spaces down to `n`, where `n` is `lo` or
      follows a non-space, stops at `n`. */
  lemma {:induction false} SkipBackDownTo(s: string, lo: nat, j: nat, n: nat)
    requires lo <= n <= j <= |s| && SpaceBetween(s, n, j)
    requires n > lo ==> !IsJsSpace(s[n - 1])
    ensures SkipSpacesBack(s, lo, j) == n
    decreases j
  {
    if j > n {
      SkipBackDownTo(s, lo, j - 1, n);
    }
  }

  const VocabPrefix: string := "vd-"
  const SevenFivePrefix: string := "sf-"

  predicate StartsWith(s: string, p: string) {
    |p| <= |s| && s[..|p|] == p
  }

  predicate HasAnswerPrefix(id: string) {
    StartsWith(id, VocabPrefix) || StartsWith(id, SevenFivePrefix)
  }

  /** `id.replace(/^vd-|^sf-/, '')`: without the global flag the anchored
      pattern matches at most once, so at most one leading `vd-` or `sf-`
      goes. The result is a suffix of `id`, shorter by exactly three
      characters when `id` starts with a prefix, and `id` itself otherwise. */
  function StripAnswerPrefix(id: string): (r: string)
    ensures |r| <= |id| && r == id[|id| - |r|..]
    ensures HasAnswerPrefix(id) ==> |id| - |r| == 3 && id[..3] in {VocabPrefix, SevenFivePrefix}
    ensures !HasAnswerPrefix(id) ==> r == id
  {
    if StartsWith(id, VocabPrefix) || StartsWith(id, SevenFivePrefix) then id[3..] else id
  }

  /** Prefixing an id with `vd-` or `sf-` and stripping gives the id back,
      whatever the id itself starts with. */
  lemma StripAddedPrefix(p: string, x: string)
    requires p == VocabPrefix || p == SevenFivePrefix
    ensures StripAnswerPrefix(p + x) == x
  {
    assert (p + x)[..3] == p;
    assert (p + x)[3..] == x;
  }

  /** Only one prefix is removed: `vd-sf-2` becomes `sf-2`, not `2`. */
  lemma StripRemovesOnlyOne()
    ensures StripAnswerPrefix("vd-sf-2") == "sf-2"
    ensures StripAnswerPrefix(StripAnswerPrefix("vd-sf-2")) == "2"
  {
    assert StartsWith("vd-sf-2", VocabPrefix);
    assert StartsWith("sf-2", SevenFivePrefix);
  }
}

=== FILE: time_format.dfy ===
/** `formatTime(minutes)`: the learning-time display, in minutes below an
    hour and in hours (plus minutes when there are any) from an hour on. */
module TimeFormat {
  import opened Decimal

  const MinuteUnit: string := " 分鐘"
  const HourUnit: string := " 小時"

  /** The three shapes the display takes. */
  datatype Reading = Minutes(m: nat) | Hours(h: nat) | HoursMinutes(h: nat, m: nat)

  function TotalMinutes(r: Reading): nat {
    match r
    case Minutes(m) => m
    case Hours(h) => h * 60
    case HoursMinutes(h, m) => h * 60 + m
  }

  /** The reading chosen for `minutes`: it always adds back up to `minutes`,
      is a bare minute count exactly below 60, and otherwise shows at least
      one hour and a minute part in 1..59 only when it is not zero. */
  function Split(minutes: nat): (r: Reading)
    ensures TotalMinutes(r) == minutes
    ensures r.Minutes? <==> minutes < 60
    ensures r.Hours? ==> r.h >= 1
    ensures r.HoursMinutes? ==> r.h >= 1 && 0 < r.m < 60
  {
    if minutes < 60 then Minutes(minutes)
    else
      var hours := minutes / 60;
      var mins := minutes % 60;
      if mins > 0 then HoursMinutes(hours, mins) else Hours(hours)
  }

  function Render(r: Reading): string {
    match r
    case Minutes(m) => NatToString(m) + MinuteUnit
    case Hours(h) => NatToString(h) + HourUnit
    case HoursMinutes(h, m) => NatToString(h) + HourUnit + " " + NatToString(m) + MinuteUnit
  }

  /** `formatTime`: a bare minute count below an hour, whole hours when the
      minutes divide evenly, and hours then minutes otherwise. */
  function FormatTime(minutes: nat): (s: string)
    ensures minutes < 60 ==> s == NatToString(minutes) + MinuteUnit
    ensures minutes >= 60 && minutes % 60 == 0 ==> s == NatToString(minutes / 60) + HourUnit
    ensures minutes >= 60 && minutes % 60 != 0 ==>
              s == NatToString(minutes / 60) + HourUnit + " " + NatToString(minutes % 60) + MinuteUnit
  {
    Render(Split(minutes))
  }

  /** The three shapes on sample durations. */
  lemma FormatTimeSamples()
    ensures FormatTime(45) == "45 分鐘"
    ensures FormatTime(120) == "2 小時"
    ensures FormatTime(135) == "2 小時 15 分鐘"
  {
  }

  /** The display never confuses two durations: equal texts mean equal
      minute counts. */
  lemma FormatTimeInjective(a: nat, b: nat)
    requires FormatTime(a) == FormatTime(b)
    ensures a == b
  {
    RenderInjective(Split(a), Split(b));
  }

  lemma RenderInjective(r1: Reading, r2: Reading)
    requires Render(r1) == Render(r2)
    ensures r1 == r2
  {
    var (n1, t1) := Parts(r1);
    var (n2, t2) := Parts(r2);
    assert Render(r1) == NatToString(n1) + t1;
    assert Render(r2) == NatToString(n2) + t2;
    SplitAtNumeral(NatToString(n1), t1, NatToString(n2), t2);
    NatToStringInjective(n1, n2);
    if r1.HoursMinutes? && r2.HoursMinutes? {
      var s1, s2 := NatToString(r1.m), NatToString(r2.m);
      assert t1 == HourUnit + " " + s1 + MinuteUnit;
      assert t2 == HourUnit + " " + s2 + MinuteUnit;
      assert t1[4..] == s1 + MinuteUnit;
      assert t2[4..] == s2 + MinuteUnit;
      SplitAtNumeral(s1, MinuteUnit, s2, MinuteUnit);
      NatToStringInjective(r1.m, r2.m);
    }
  }

  /** The leading number of a rendering and the text after it. */
  function Parts(r: Reading): (p: (nat, string))
    ensures Render(r) == NatToString(p.0) + p.1
    ensures |p.1| >= 3 && p.1[0] == ' '
    ensures r.Minutes? ==> p.1 == MinuteUnit
    ensures r.Hours? ==> p.1 == HourUnit
    ensures r.HoursMinutes? ==> p.1 == HourUnit + " " + NatToString(r.m) + MinuteUnit
  {
    match r
    case Minutes(m) => (m, MinuteUnit)
    case Hours(h) => (h, HourUnit)
    case HoursMinutes(h, m) =>
      assert Render(r) == NatToString(h) + (HourUnit + " " + NatToString(m) + MinuteUnit);
      (h, HourUnit + " " + NatToString(m) + MinuteUnit)
  }
}

=== FILE: wrappers.dfy ===
/** The Option datatype shared by every module of the model: JavaScript's
    `null`/`undefined` for an absent value. */
module Wrappers {

  datatype Option<+T> = None | Some(value: T) {

    /** Returns the value held in Some, or `default` when None. */
    function GetOr(default: T): T {
      match this
      case Some(v) => v
      case None => default
    }
  }
}
